=== FILE: README.md ===
# Murano macro language parser, modelled in Dafny

The macro parser reads a program one line at a time. Each line is
tokenized into `(key, value, dashed)` and fed to the innermost open node
(macroparser.py). The parser builds a tree:

- leaves: `SingleValue`, `KeyPair`;
- list blocks: `CodeBlock`, `CatchBlock`;
- the `NamedBlock` constructs: `If`, `While`, `For`, `Try`, `With`, `As`, `Do`;
- the `OrbObject`, which defers its mode.

An interactive loop keeps a stack of the open nodes (mpl_repl.py). At each
round it does one of the following:

- It pops a finished node.
- It pops the top node on an empty line.
- It feeds the line to the top node and pushes whatever that node opened.

When the stack empties, the loop serializes the root into a plain document.

The model is functional:

- The tree is an immutable `Node` datatype.
- The stack is a sequence of frames. A frame is either a path into the tree
  (for an open block) or a copy of a leaf. Leaves never change and are
  always done, so a copy is as good as the shared object.
- `add_line` is a pure function. It returns the updated node, plus the
  frames the line opened relative to that node.
- The loop is a function folded over the input lines.

Modules:

| module | file | models |
|---|---|---|
| `Wrappers` | wrappers.dfy | Option, Result, and the reasons a line or a tree is refused |
| `Tokenizer` | tokenizer.dfy | `parse` and its regular expression, with a round trip through a printer |
| `Macros` | macros.dfy | the node kinds, the keyword tables, `is_done`, `indent` |
| `Ordered` | ordered.dfy | the insertion-ordered dictionary the blocks store children in |
| `Paths` | paths.dfy | paths into the tree, and the stack invariant ("chained" frames) |
| `Grammar` | grammar.dfy | `add_line`, the factories, `statement`, each block's `add_child` |
| `GrammarLaws` | grammar_laws.dfy | what each block kind accepts, refuses and builds |
| `Serializer` | serialize.dfy | the `serialize` methods, including their one failure |
| `Repl` | repl.dfy | the stack loop, the prompt, keyword completion |
| `Scenarios` | scenarios.dfy | worked examples: tokenizing particular lines, a short macro step by step |

## Model

| member | source | states |
|---|---|---|
| Tokenizer.Tokenize | macroparser.py:19-34 | `dashed` holds exactly when the line opens with a whole `ws* - ws+` marker. Otherwise the rest is split. The key is the shortest prefix of the rest that ends in a word character and is followed by optional spaces, a colon, and then whitespace or the end of the line. The value is the text after that whitespace, or none when it is empty. With no such prefix, the key is None and the value is the whole rest. No line is rejected. |
| Tokenizer.MarkerLength | macroparser.py:19 | The greedy optional dash group consumes a whole marker that is not followed by more whitespace. When it consumes nothing, no prefix of the line is a marker. |
| Tokenizer.FindKey | macroparser.py:20 | The lazy key group picks the first key length that can be completed by a colon. No shorter length can. |
| Tokenizer.TokenShape | macroparser.py:19-32 | A key is non-empty and ends in a word character. A value next to a key is non-empty and starts with a non-space. A keyless line always has a value. |
| Tokenizer.TokenizeUnparse | macroparser.py:19-32 | Round trip: a well-formed token, written out as `- key: value` (or its shorter forms), tokenizes back to itself. |
| Tokenizer.ReadsBack | macroparser.py:19-32 | Any line that spells out a well-formed token is a line and tokenizes as that token. |
| Scenarios.ClockLine | macroparser.py:19-21 | `12:30` has no key: its colon is glued to the next character, so the whole line is a scalar. |
| Scenarios.UrlLine | macroparser.py:19-21 | `http://x` is a scalar for the same reason. |
| Scenarios.KeyValueLine | macroparser.py:19-32 | `key: value` splits into the key and the value, undashed. |
| Scenarios.DashedScalarLine | macroparser.py:19-32 | `- item` is a dashed scalar; the marker is not part of the value. |
| Macros.IsDone | macroparser.py:134-138 | A leaf is always done (the base `is_done`, lines 44-45). Among the blocks, exactly the constructs with an empty table are done. CodeBlock and OrbObject have a default factory, and CatchBlock never loses its keywords, so those three are never done. |
| Macros.FollowUps | macroparser.py:270-325 | Only `Do` has no follow-up keyword. A construct's own keyword is never a follow-up. The only follow-ups that take a scalar value are `In` (of `For`) and `As` (of `With`). |
| Macros.ListTable | macroparser.py:340-347 | A CodeBlock's keywords are exactly `If`, `While`, `For`, `Try` and `Do`, and a CatchBlock's are exactly `With` and `As` (lines 309-312). Each keyword maps to the construct it names. |
| Macros.Keywords | macroparser.py:122-123 | A CodeBlock offers the five statement keywords and a CatchBlock the two catch keywords. A construct offers the keywords still in its table. Leaves (the base `get_kwords`, lines 51-52) and OrbObjects, whose table is empty, offer none. |
| Macros.Indent | macroparser.py:197-204 | The indent is 4 exactly for list blocks (lines 158-160) and list-mode OrbObjects. It is 2 exactly for OrbObjects not in list mode, and 0 for everything else (the base indent, lines 47-49). |
| Macros.TemplateAddsHead | macroparser.py:260-263 | A construct's own keyword is never one of its follow-ups. The fresh table is the follow-ups plus exactly that keyword, and removing the keyword gives back the follow-ups. |
| Ordered.Assign | macroparser.py:168-169 | `d[k] = v`: a new key goes last. An existing key keeps its position and takes the new value. Every other entry is unchanged. |
| Ordered.AssignDistinct | macroparser.py:168-169 | Assignment keeps the keys distinct, and the key set grows by exactly `k`. |
| Grammar.CheckInit | macroparser.py:213-225 | A successful check commits a mode. The commit keeps a mode already made, and only a keyed line commits dict mode. |
| Grammar.AddChild | macroparser.py:227-239 | `add_child` keeps the node's kind, and the returned path leads to the stored child (for blocks). List and dict blocks always accept. An OrbObject accepts exactly when its mode check passes, and it ends in the mode the check commits. |
| Grammar.Statement | macroparser.py:330-338 | A keyless line is a scalar of its value. A key with a value is a KeyPair of raw text. A key alone is a KeyPair holding a fresh OrbObject. |
| Grammar.BuildPart | macroparser.py:105-108 | A factory succeeds exactly when it is called with the number of arguments it takes, and otherwise fails with an arity error. Only the scalar factory builds a leaf, and a list factory builds an empty list. |
| Grammar.NewConstruct | macroparser.py:260-325 | A construct called with a missing or surplus head value fails with an arity error. A built construct is of the requested kind, and its `children` (what its head line opened) hold at least the head. |
| Grammar.Produce | macroparser.py:102-115 | A line whose key is not in the table is handed to the default factory when there is one, which builds `statement(line)` and opens nothing. Otherwise it fails as an unknown keyword. |
| Grammar.AddLine | macroparser.py:95-120 | A dashed line is refused by every block but an OrbObject. A successful line keeps the node's kind and returns at least one node. |
| GrammarLaws.AddLineReturns | macroparser.py:117-120 | A leaf child is returned alone. Otherwise the first returned node is the child, at the path where the block stored it, and the rest are the child's own `children`, made relative to that path. |
| GrammarLaws.AddLineFrames | macroparser.py:117-120 | What `add_line` returns is a valid chain of frames over the updated block. Every returned block lies inside the block, below the child that opened it, and every other entry is a leaf. |
| GrammarLaws.ProduceFrames | macroparser.py:102-113 | The child built for a line (by the table's factory or by `statement`) opens only blocks inside itself, and a leaf opens nothing. |
| GrammarLaws.BuildFrames | macroparser.py:102-108 | The same for every table factory. |
| GrammarLaws.ConstructFrames | macroparser.py:264-267 | A construct's `children` (what its head line opened) lie inside the construct. |
| GrammarLaws.HeadLineReparses | macroparser.py:264-267 | The synthesized head line `Key: value` (or `Key:`) tokenizes back to the construct's keyword and that value, undashed. |
| GrammarLaws.HeadProduce | macroparser.py:102-108 | The head line reaches the keyword's own factory, which builds the head: the condition as a scalar, or an empty CodeBlock for `Try` and `Do`. |
| GrammarLaws.HeadLineAdded | macroparser.py:262-267 | Feeding the head line to the fresh table stores the head as the first entry and removes the keyword from the table. |
| GrammarLaws.NewConstructShape | macroparser.py:260-325 | A construct refuses a missing or surplus head value. Otherwise it is its follow-up table plus the stored head, and its `children` are what the head line opened. |
| GrammarLaws.NewConstructValid | macroparser.py:260-267 | A new construct satisfies the construct invariant. Its entries have distinct keys. Its table and its used keys split the template. Each factory in the table is the template's. |
| GrammarLaws.ConstructAcceptsIff | macroparser.py:100-115 | A construct accepts a line exactly when it is undashed, its key is still in the table, and the key's factory takes a value exactly when the line has one. |
| GrammarLaws.ConstructRefusal | macroparser.py:100-115 | A refused line fails for exactly one reason: a dash, an unknown or already used keyword (there is no default factory), or a factory called with the wrong number of arguments. |
| GrammarLaws.NamedProduce | macroparser.py:102-115 | A construct builds a line's child only with the factory of the line's key. A key outside the table is refused. |
| GrammarLaws.ConstructUsesKeyword | macroparser.py:103-109 | An accepted line takes its keyword out of the table and appends one entry under that key, holding the child the keyword's factory builds from the line's value (lines 106-109, 169). Earlier entries are unchanged, and the invariant is preserved. |
| GrammarLaws.ConstructNoRepeat | macroparser.py:177-178 | A keyword a construct has used is refused from then on. |
| GrammarLaws.ConstructDoneIff | macroparser.py:134-138 | A valid construct is done exactly when every keyword of its template has been used. |
| GrammarLaws.OnlyDoIsBornDone | macroparser.py:323-325 | A construct is done right after it is built exactly when it is `Do`. |
| GrammarLaws.ListAppends | macroparser.py:146-156 | A list block keeps its kind, never loses an item, and appends exactly one item per accepted line. |
| GrammarLaws.ListKeywordLine | macroparser.py:340-347 | A keyword of a list block's table starts that construct, which succeeds exactly when the arity matches. The block appends the construct, and the line pushes the construct followed by its head frame. |
| GrammarLaws.ListOtherLine | macroparser.py:330-338 | An undashed non-keyword line is refused by a CatchBlock. A CodeBlock appends it through `statement`: a bare scalar, a key with raw text, or a key alone (an OrbObject wrapped in a KeyPair, whose path is pushed). |
| GrammarLaws.AttachEntry | macroparser.py:168-169 | A construct stores a child under a key it has not used, as the last entry. |
| GrammarLaws.AttachAppend | macroparser.py:146-150 | A list block appends a child as is, unless a key forces a KeyPair wrapper. |
| GrammarLaws.OrbLine | macroparser.py:184 | An OrbObject's table is empty, so every line goes to `statement`. The line's outcome is the outcome of `add_child`. |
| GrammarLaws.OrbFirstLine | macroparser.py:213-221 | The first line commits the mode. A keyed line (even a dashed one) commits dict mode, and a keyless dashed line commits list mode. A keyless undashed line is refused. |
| GrammarLaws.OrbModeSticks | macroparser.py:222-225 | A committed OrbObject never changes mode: a list-mode one stays in list mode and a dict-mode one stays in dict mode. |
| GrammarLaws.OrbListAppends | macroparser.py:233-234 | A list-mode OrbObject accepts every line and appends exactly one item: a scalar for a keyless line, a KeyPair of raw text for `k: v`, and a KeyPair holding a fresh OrbObject for `k:`, as `statement` builds them (lines 330-338). |
| GrammarLaws.OrbDictLine | macroparser.py:222-239 | A dict-mode OrbObject accepts exactly the undashed keyed lines. Its keys stay distinct. Afterwards it stores, under the line's key, the raw text `v` for `k: v` and a fresh OrbObject for `k:`. |
| Serializer.Serialize | macroparser.py:241-250 | Serialization fails only for raw text. A scalar gives its expression (lines 63-64). A KeyPair (lines 79-83) gives a one-entry mapping of its key to its text, or to its nested node's document. A list block gives the documents of its items in order (lines 152-153), and a construct gives its entries' documents key by key (lines 171-175). An undecided OrbObject gives null, a list-mode one the list of its items, and a dict-mode one the mapping of its fields. |
| Serializer.SerializeItems | macroparser.py:152-153 | A list serializes exactly when every item does, item by item in append order. |
| Serializer.SerializeEntries | macroparser.py:171-175 | A construct's entries serialize key by key in insertion order, exactly when every value does. |
| Serializer.SerializeFields | macroparser.py:243-246 | A dict-mode OrbObject serializes exactly when every stored value is a nested node that serializes. Raw text fails. |
| Serializer.SerializeFailsIff | macroparser.py:236-245 | A tree fails to serialize exactly when some node in it is a dict-mode OrbObject holding raw text. |
| Serializer.FailWitness | macroparser.py:236-245 | A failed serialization names the path to such a node. |
| Serializer.RawBreaks | macroparser.py:244-245 | Such a node anywhere in the tree makes the whole serialization fail. |
| Serializer.SerializeAppend | macroparser.py:152-153 | Appending a line to a list serializes as appending its document. |
| Serializer.DictTextBreaks | macroparser.py:236-245 | Feeding `k: v` to a dict-mode OrbObject succeeds, and the OrbObject then fails to serialize. |
| Scenarios.ConditionalDocument | macroparser.py:152-175 | The tree of an `If: c` construct whose `Then:` branch holds one statement serializes to a list holding one mapping of the condition and the branch. |
| Scenarios.IfStep | macroparser.py:95-120 | `If: x > 0` fed to an empty CodeBlock appends the construct and pushes it along with the condition. |
| Scenarios.ThenStep | macroparser.py:95-120 | `Then:` fed to that construct stores an empty CodeBlock branch and pushes it. |
| Scenarios.PrintStep | macroparser.py:95-120 | `print x` fed to the branch appends a scalar and pushes it. |
| Scenarios.DashedStatementRefused | macroparser.py:100-101 | `- print x` fed to a CodeBlock is refused. |
| Scenarios.BranchSession | mpl_repl.py:37-68 | The loop over any `If` line, `Then:`, a plain statement and three empty lines pops the condition, feeds the lines, pops the statement, and closes the branch, the construct and the root. The document is one mapping of the condition and the one-statement branch. |
| Scenarios.ConditionalSession | mpl_repl.py:37-68 | The lines `If: x > 0`, `Then:`, `print x` and three empty lines give that document for `x > 0` and `print x`. |
| Paths.ChainedPush | mpl_repl.py:62-64 | Replacing the top node by its updated self and pushing the frames it returned (made relative to the root) keeps the stack a valid chain. |
| Paths.SetElsewhere | mpl_repl.py:62 | Updating the node at one path leaves every node off that path unchanged. |
| Repl.InitialValid | mpl_repl.py:37 | The loop starts with one root CodeBlock, a valid chain. |
| Repl.Pop | mpl_repl.py:43-45 | Popping removes exactly the top frame and leaves the tree and the invariant intact. |
| Repl.Feed | mpl_repl.py:62-64 | Feeding a line succeeds exactly when the top node's `add_line` does. The new tree is the old one with the top node replaced by its updated self, and no node off its path changes. The new stack is the old one extended by the returned frames, made relative to the top node's path. The invariant holds. |
| Repl.Run | mpl_repl.py:39-64 | A finished run leaves a CodeBlock root. A run that is waiting for input has a valid stack whose top still wants input. |
| Repl.Unwind | mpl_repl.py:58-59 | As many empty lines as there are open nodes end the loop with the tree unchanged. |
| Repl.RunAppend | mpl_repl.py:39-64 | Running over `a + b` is running over `a` and then, if the loop still waits, over `b`. |
| Repl.Session | mpl_repl.py:66-68 | A document is produced exactly when the loop ends, and it is the serialization of the root the loop ended with. |
| Repl.PromptIndent | mpl_repl.py:47 | The indentation is the sum of the indents of the stacked nodes less 4, and it is 0 when only the root is open. |
| Repl.IndentSumAtLeastRoot | mpl_repl.py:47 | The summed indent is at least the root's 4, so the prompt indentation is never negative. |
| Repl.Suffix | mpl_repl.py:49-54 | The suffix is `- ` exactly when the top is a list block or a list-mode OrbObject; otherwise it is two spaces. So a dash is shown exactly when the top node indents by 4. |
| Repl.Prompt | mpl_repl.py:46-56 | The prompt is the banner at the outermost level (spaces of its width deeper in), then `indents` spaces, then the suffix. |
| Repl.FirstPrompt | mpl_repl.py:46-56 | The first prompt is `(murano) - `. |
| Repl.Matching | mpl_repl.py:31 | Every offered completion is `k + ": "` for a keyword `k` that starts with the typed prefix, and every such keyword is offered. Keywords listed once each give completions without repeats. |
| Repl.MatchingSnoc | mpl_repl.py:31 | The completions keep the keywords' order: one more keyword at the end adds its completion at the end when it matches, and nothing otherwise. |
| Repl.MatchingCount | mpl_repl.py:31 | Keywords listed once each give exactly one completion per matching keyword. |
| Repl.Complete | mpl_repl.py:28-33 | Given the live keywords of the top node in some order without repeats, an index within the matches yields the index-th match, a completion of a live keyword. An index past the end yields None. There are as many matches as live keywords starting with the prefix, and no match repeats. |
| Repl.CompletionExact | mpl_repl.py:28-33 | `k + ": "` is offered at some index exactly when `k` is a live keyword of the top node starting with the prefix. |

## Left out

- readline, `raw_input`, the prompt printing and the YAML dump (mpl_repl.py:15-25, 35, 56-57, 66-68) are terminal I/O. The input is a sequence of lines, and the output is the serialized document.
- The end of input, which raises `EOFError` in `raw_input`, is modelled as the run waiting for more input.
- Scenarios.BranchSession: the statement line must be non-empty, because the loop pops on an empty line instead of feeding it.
- Lines that contain a newline are not modelled. A line read from the terminal never contains one, and on such lines the regular expression could fail to match (the unreachable `raise` of `parse`).
- The `__str__` methods and the `mode` property (macroparser.py:66-67, 85-86, 188-195) are left out because nothing in the core uses them.
- The exception classes (MacroParseException, the TypeError of a factory arity mismatch, the AttributeError of serializing raw text) are collapsed into one failure with a reason tag. None is caught by the loop, so every one aborts the run.
- The key popped before a failing factory runs is not observable, because that failure aborts the run.
- utils.UnsortableOrderedDict is not part of this model. It is modelled as an association list in which a new key goes last and a re-assigned key keeps its position. Its YAML-sorting purpose is not modelled.
- `get_kwords` enumerates a Python dict in an unspecified order. Repl.Complete takes that order as a parameter that lists exactly the live keywords, each once, as the keys of a dict are.
- Repl.Complete: the `index` argument is a natural number. readline never passes a negative one, and for a negative index Python's `index < len(...)` would hold and the list would be indexed from its end.
- `get_macro_dicts` returns a fresh dict for each CodeBlock. A list block never removes table entries, so its table is a constant per block kind.
- The object identity shared between the stack and the tree is represented by paths into the immutable tree. Leaves are pushed as copies, because they are never changed and are always done.

## Behaviour worth noting

The model keeps these behaviours of the code as they are:

- A dashed line inside a CodeBlock (`- print x` under `Then:`) is refused. Only OrbObject allows dashes; the `- ` of a list block's prompt is prompt text only (Scenarios.DashedStatementRefused).
- A keyed first line commits an OrbObject to dict mode even when it is dashed. A keyless undashed first line is refused (GrammarLaws.OrbFirstLine).
- The statement-level keywords are `If`, `While`, `For`, `Try` and `Do`. `With` and `As` exist only inside a `Catch` block, and `Try`'s head is a CodeBlock (Macros.ListTable, Macros.HeadPart).
- A dict-mode OrbObject stores raw text for a `key: text` line, and serializing it fails (Serializer.DictTextBreaks, Serializer.SerializeFailsIff). This is kept, not corrected.

=== FILE: grammar.dfy ===
/** MacroBlock.add_line and everything it calls: the table lookup, the factories
    (SingleValue, CodeBlock, CatchBlock and the NamedBlock constructs, which feed
    their own synthesized head line back through add_line), the default factory
    `statement`, and the add_child rule of each block kind. */
module Grammar {
  import opened Wrappers
  import opened Tokenizer
  import opened Macros
  import opened Ordered
  import opened Paths

  /** A factory found in a block's table. */
  datatype Factory = MakeConstruct(c: Construct) | MakePart(p: Part)

  /** A factory's product: the child, and the nodes it opened while it was
      being built (`child.children`), as frames relative to the child. */
  datatype Made = Made(child: Node, children: seq<Frame>)

  /** What add_line returns, with the block it updated: the new block, and
      `[child] + child.children` as frames relative to that block. */
  datatype Added = Added(node: Node, frames: seq<Frame>)

  /** Where add_child stored a child: the new block and the path of the child in it. */
  datatype Placed = Placed(node: Node, at: Path)

  /** `allowed_blocks[key]`; a missing key, and the key None, raise KeyError.
      An OrbObject's table is empty. */
  function Lookup(n: Node, key: Option<string>): Option<Factory> {
    if key.None? then None
    else match n
      case List(kind, _) =>
        if key.value in ListTable(kind) then Some(MakeConstruct(ListTable(kind)[key.value])) else None
      case Named(_, table, _) =>
        if key.value in table then Some(MakePart(table[key.value])) else None
      case _ => None
  }

  /** allow_dashes: only OrbObject overrides it to True. */
  predicate AllowDashes(n: Node) {
    n.Orb?
  }

  /** repeat_keys: True for ListBlock, False for DictBlock. (OrbObject's table
      is empty, so its answer is never asked.) */
  predicate RepeatKeys(n: Node) {
    n.List?
  }

  /** Python truthiness of an optional text. */
  predicate Truthy(s: Option<string>) {
    s.Some? && s.value != ""
  }

  /** The default factory `statement`: a key with a value gives a KeyPair of raw
      text, a key alone an uncommitted OrbObject, no key a SingleValue. */
  function Statement(line: string): (r: Node)
    requires IsLine(line)
    ensures var t := Tokenize(line);
      && (t.key.None? ==> t.value.Some? && r == Single(t.value.value))
      && (t.key.Some? && t.value.Some? ==> r == Pair(t.key.value, Text(t.value.value)))
      && (t.key.Some? && t.value.None? ==> r == Orb(Unset))
  {
    var t := Tokenize(line);
    TokenShape(line);
    if Truthy(t.key) then
      if Truthy(t.value) then Pair(t.key.value, Text(t.value.value)) else Orb(Unset)
    else Single(t.value.value)
  }

  /** The factories a NamedBlock table holds, called with the line's value or
      with nothing; calling one with the wrong number of arguments is a TypeError. */
  function BuildPart(p: Part, value: Option<string>): (r: Result<Node>)
    ensures r.Ok? <==> PartTakesValue(p) == value.Some?
    ensures r.Fail? ==> r.error == FactoryArity
    ensures r.Ok? ==> (IsLeaf(r.value) <==> p == ScalarPart) && (r.value.List? ==> r.value.items == [])
  {
    if PartTakesValue(p) != value.Some? then Fail(FactoryArity)
    else match p
      case ScalarPart => Ok(Single(value.value))
      case CodePart => Ok(List(Code, []))
      case CatchPart => Ok(List(Catch, []))
  }

  /** The line a NamedBlock feeds itself: `key: value`, or `key:` without a value. */
  function HeadLine(c: Construct, value: Option<string>): string {
    if Truthy(value) then Keyword(c) + ": " + value.value else Keyword(c) + ":"
  }

  lemma KeywordShape(c: Construct)
    ensures Keyword(c) != ""
    ensures forall i :: 0 <= i < |Keyword(c)| ==> IsWord(Keyword(c)[i])
  {
  }

  lemma HeadLineIsLine(c: Construct, value: Option<string>)
    requires value.Some? ==> IsLine(value.value)
    ensures IsLine(HeadLine(c, value))
  {
    KeywordShape(c);
    var h := HeadLine(c, value);
    var k := Keyword(c);
    if Truthy(value) {
      assert forall i :: |k| + 2 <= i < |h| ==> h[i] == value.value[i - |k| - 2];
    }
  }

  /** Bounds the nesting of add_line calls: a ListBlock line may build a
      construct, whose head line goes to a NamedBlock, whose factories are leaves. */
  function Depth(n: Node): nat {
    if n.Named? then 2 else 5
  }

  /** A NamedBlock with its table entry for `k` popped. */
  function Consume(n: Node, k: string): Node
    requires n.Named?
  {
    Named(n.construct, n.table - {k}, n.entries)
  }

  /** OrbObject._check_init: the first line commits the mode (a key commits
      dict mode, a keyless dashed line list mode, a keyless plain line is
      refused); in dict mode a keyless or dashed line is refused. */
  function CheckInit(mode: OrbMode, key: Option<string>, dashed: bool): (r: Result<OrbMode>)
    ensures r.Ok? && r.value.Keyed? ==> key.Some?
    ensures r.Ok? && mode != Unset ==> r.value == mode
    ensures r.Ok? ==> r.value != Unset
  {
    match mode
    case Unset =>
      if key.None? then (if dashed then Ok(Listed([])) else Fail(ModeViolation))
      else Ok(Keyed([]))
    case Listed(_) => Ok(mode)
    case Keyed(_) => if key.None? || dashed then Fail(ModeViolation) else Ok(mode)
  }

  /** add_child of each block kind. A ListBlock wraps a keyed SingleValue or
      OrbObject in a KeyPair and appends; a DictBlock stores the child under
      its key; an OrbObject wraps a keyed non-KeyPair, commits or checks its
      mode, then appends (list mode) or stores `child.value` under the key
      (dict mode). The returned path leads to the child itself. */
  function AddChild(n: Node, key: Option<string>, child: Node, dashed: bool): (r: Result<Placed>)
    requires IsBlock(n)
    requires n.Named? ==> key.Some?
    ensures r.Ok? ==> SameShape(n, r.value.node)
    ensures r.Ok? && !IsLeaf(child) ==> Get(r.value.node, r.value.at) == Some(child)
    ensures !n.Orb? ==> r.Ok?
    ensures n.Orb? ==> (r.Ok? <==> CheckInit(n.mode, key, dashed).Ok?)
    ensures n.Orb? && r.Ok? ==>
      && r.value.node.Orb?
      && (r.value.node.mode.Listed? <==> CheckInit(n.mode, key, dashed).value.Listed?)
      && (r.value.node.mode.Keyed? <==> CheckInit(n.mode, key, dashed).value.Keyed?)
  {
    match n
    case List(kind, items) =>
      var wrap := Truthy(key) && (child.Single? || child.Orb?);
      var stored := if wrap then Pair(key.value, Sub(child)) else child;
      var at := if wrap then [Item(|items|), Inner] else [Item(|items|)];
      assert Get(List(kind, items + [stored]), at) == Some(child) by {
        assert Child(List(kind, items + [stored]), Item(|items|)) == Some(stored);
        if wrap {
          assert at[1..] == [Inner] && [Inner][1..] == [];
          assert Get(stored, [Inner]) == Some(child);
        } else {
          assert at[1..] == [];
        }
      }
      Ok(Placed(List(kind, items + [stored]), at))
    case Named(c, table, entries) =>
      var i := Find(entries, key.value);
      var entries' := Assign(entries, key.value, child);
      assert Get(Named(c, table, entries'), [Entry(i)]) == Some(child) by {
        assert [Entry(i)][1..] == [];
      }
      Ok(Placed(Named(c, table, entries'), [Entry(i)]))
    case Orb(mode) =>
      var wrap := key.Some? && !child.Pair?;
      var wrapped := if wrap then Pair(key.value, Sub(child)) else child;
      var mode' :- CheckInit(mode, key, dashed);
      match mode'
      case Listed(items) =>
        var at := if wrap then [Item(|items|), Inner] else [Item(|items|)];
        assert Get(Orb(Listed(items + [wrapped])), at) == Some(child) by {
          assert Child(Orb(Listed(items + [wrapped])), Item(|items|)) == Some(wrapped);
          if wrap {
            assert at[1..] == [Inner] && [Inner][1..] == [];
            assert Get(wrapped, [Inner]) == Some(child);
          } else {
            assert at[1..] == [];
          }
        }
        Ok(Placed(Orb(Listed(items + [wrapped])), at))
      case Keyed(fields) =>
        var v := if wrapped.Orb? then Sub(wrapped) else wrapped.val;
        var i := Find(fields, key.value);
        var fields' := Assign(fields, key.value, v);
        assert !IsLeaf(child) ==> Get(Orb(Keyed(fields')), [Entry(i)]) == Some(child) by {
          assert [Entry(i)][1..] == [];
        }
        Ok(Placed(Orb(Keyed(fields')), [Entry(i)]))
      case Unset => Ok(Placed(n, []))
  }

  /** MacroBlock.add_line: tokenize; refuse a dash the block does not allow;
      look the key up, popping it unless the block repeats keys; build the child
      with the table's factory or else the default factory on the whole line
      (no default factory: refuse); add the child; return the child followed by
      the nodes it opened itself. */
  function AddLine(n: Node, line: string): (r: Result<Added>)
    requires IsBlock(n) && IsLine(line)
    ensures Tokenize(line).dashed && !n.Orb? ==> r == Fail(DashNotAllowed)
    ensures r.Ok? ==> SameShape(n, r.value.node) && IsBlock(r.value.node) && |r.value.frames| >= 1
    decreases Depth(n), 1
  {
    var t := Tokenize(line);
    if t.dashed && !AllowDashes(n) then Fail(DashNotAllowed)
    else
      var made :- Produce(n, line);
      var found := Lookup(n, t.key);
      Attach(if found.Some? && !RepeatKeys(n) then Consume(n, t.key.value) else n, t.key, t.dashed, made)
  }

  /** The child a line produces: the table's factory called with the line's
      value, or else the default factory on the whole line. */
  function Produce(n: Node, line: string): (r: Result<Made>)
    requires IsBlock(n) && IsLine(line)
    ensures Lookup(n, Tokenize(line).key).None? ==>
      && (r.Ok? <==> HasFallback(n))
      && (r.Ok? ==> r.value == Made(Statement(line), []))
      && (r.Fail? ==> r.error == UnknownKeyword)
    decreases Depth(n), 0
  {
    var t := Tokenize(line);
    TokenShape(line);
    match Lookup(n, t.key)
    case Some(f) => Build(f, t.value)
    case None => if HasFallback(n) then Ok(Made(Statement(line), [])) else Fail(UnknownKeyword)
  }

  /** add_child, and the list add_line returns: the child's frame, then the
      frames it opened, made relative to the block. */
  function Attach(n: Node, key: Option<string>, dashed: bool, made: Made): (r: Result<Added>)
    requires IsBlock(n) && (n.Named? ==> key.Some?)
    ensures r.Ok? ==> SameShape(n, r.value.node) && |r.value.frames| >= 1
  {
    var placed :- AddChild(n, key, made.child, dashed);
    Ok(Added(placed.node, [FrameFor(made.child, placed.at)] + Shift(placed.at, made.children)))
  }

  /** Calling a factory with the line's value (or with nothing). */
  function Build(f: Factory, value: Option<string>): Result<Made>
    requires value.Some? ==> IsLine(value.value)
    decreases if f.MakeConstruct? then 4 else 1
  {
    match f
    case MakePart(p) =>
      var child :- BuildPart(p, value);
      Ok(Made(child, []))
    case MakeConstruct(c) => NewConstruct(c, value)
  }

  /** A construct's class constructor: refuse a missing or surplus head value,
      then NamedBlock.__init__: a DictBlock over the follow-ups plus the
      construct's own keyword, which consumes its synthesized head line;
      whatever that line opened becomes the construct's `children`. */
  function NewConstruct(c: Construct, value: Option<string>): (r: Result<Made>)
    requires value.Some? ==> IsLine(value.value)
    ensures ConstructTakesValue(c) != value.Some? ==> r == Fail(FactoryArity)
    ensures r.Ok? ==> r.value.child.Named? && r.value.child.construct == c && |r.value.children| >= 1
    decreases 3
  {
    if ConstructTakesValue(c) != value.Some? then Fail(FactoryArity)
    else
      HeadLineIsLine(c, value);
      var head :- AddLine(Named(c, Template(c), []), HeadLine(c, value));
      Ok(Made(head.node, head.frames))
  }
}

=== FILE: grammar_laws.dfy ===
/** What add_line guarantees, block kind by block kind: the frames it returns
    name blocks of the updated node; a construct is born holding exactly its
    head entry; a NamedBlock accepts each remaining keyword once and is done
    exactly when all are used; a ListBlock only ever appends; an OrbObject's
    first line fixes its mode for good. */
module GrammarLaws {
  import opened Wrappers
  import opened Tokenizer
  import opened Macros
  import opened Ordered
  import opened Paths
  import opened Grammar

  // ---------------------------------------------------------------------
  // Frames

  /** add_line's result `[child] + child.children` is a chain of frames of the
      updated block: every open frame names a block inside it, nested ones
      below their ancestors' descendants, and only a leaf may sit on top. */
  lemma {:induction false} AddLineFrames(n: Node, line: string)
    requires IsBlock(n) && IsLine(line)
    ensures AddLine(n, line).Ok? ==> Chained(AddLine(n, line).value.node, AddLine(n, line).value.frames)
    decreases Depth(n), 1
  {
    var t := Tokenize(line);
    if !(t.dashed && !AllowDashes(n)) {
      var made := Produce(n, line);
      if made.Ok? {
        ProduceFrames(n, line);
        var found := Lookup(n, t.key);
        var n1 := if found.Some? && !RepeatKeys(n) then Consume(n, t.key.value) else n;
        assert AddLine(n, line) == Attach(n1, t.key, t.dashed, made.value);
        var placed := AddChild(n1, t.key, made.value.child, t.dashed);
        if placed.Ok? {
          ChainedChild(placed.value.node, placed.value.at, made.value.child, made.value.children);
        }
      }
    }
  }

  /** add_line returns `[child] + child.children`: a leaf child is returned as
      itself, a block child as the path where it was stored, followed by the
      nodes it opened, moved below that path. */
  lemma AddLineReturns(n: Node, line: string)
    requires IsBlock(n) && IsLine(line)
    ensures AddLine(n, line).Ok? ==>
      && Produce(n, line).Ok?
      && var m := Produce(n, line).value;
      && var a := AddLine(n, line).value;
      && (IsLeaf(m.child) ==> a.frames == [Leaf(m.child)])
      && (!IsLeaf(m.child) ==>
            && a.frames[0].Open?
            && Get(a.node, a.frames[0].path) == Some(m.child)
            && a.frames[1..] == Shift(a.frames[0].path, m.children))
  {
    var t := Tokenize(line);
    if AddLine(n, line).Ok? {
      var made := Produce(n, line).value;
      ProduceFrames(n, line);
      var found := Lookup(n, t.key);
      var n1 := if found.Some? && !RepeatKeys(n) then Consume(n, t.key.value) else n;
      assert AddLine(n, line) == Attach(n1, t.key, t.dashed, made);
      var placed := AddChild(n1, t.key, made.child, t.dashed).value;
      var fs := [FrameFor(made.child, placed.at)] + Shift(placed.at, made.children);
      assert AddLine(n, line).value == Added(placed.node, fs);
      assert fs[1..] == Shift(placed.at, made.children);
    }
  }

  /** The child a line produces opens only blocks inside itself, and a leaf opens nothing. */
  lemma {:induction false} ProduceFrames(n: Node, line: string)
    requires IsBlock(n) && IsLine(line)
    ensures Produce(n, line).Ok? ==>
      var m := Produce(n, line).value;
      && Chained(m.child, m.children)
      && (IsLeaf(m.child) ==> m.children == [])
      && (!IsLeaf(m.child) ==> IsBlock(m.child))
    decreases Depth(n), 0
  {
    var t := Tokenize(line);
    TokenShape(line);
    var found := Lookup(n, t.key);
    if found.Some? {
      BuildFrames(found.value, t.value);
    }
  }

  /** A factory's product opens only blocks inside the product, and a leaf opens nothing. */
  lemma {:induction false} BuildFrames(f: Factory, value: Option<string>)
    requires value.Some? ==> IsLine(value.value)
    ensures Build(f, value).Ok? ==>
      var m := Build(f, value).value;
      && Chained(m.child, m.children)
      && (IsLeaf(m.child) ==> m.children == [])
      && (!IsLeaf(m.child) ==> IsBlock(m.child))
    decreases if f.MakeConstruct? then 4 else 1, 0
  {
    match f
    case MakePart(p) =>
      if Build(f, value).Ok? {
        assert Build(f, value).value.children == [];
      }
    case MakeConstruct(c) =>
      ConstructFrames(c, value);
  }

  /** A construct opens only blocks inside itself. */
  lemma {:induction false} ConstructFrames(c: Construct, value: Option<string>)
    requires value.Some? ==> IsLine(value.value)
    ensures NewConstruct(c, value).Ok? ==>
      var m := NewConstruct(c, value).value;
      && Chained(m.child, m.children)
      && IsBlock(m.child)
    decreases 3, 0
  {
    if ConstructTakesValue(c) == value.Some? {
      HeadLineIsLine(c, value);
      var head := AddLine(Named(c, Template(c), []), HeadLine(c, value));
      AddLineFrames(Named(c, Template(c), []), HeadLine(c, value));
      if head.Ok? {
        assert NewConstruct(c, value) == Ok(Made(head.value.node, head.value.frames));
      }
    }
  }

  // ---------------------------------------------------------------------
  // Constructs

  /** The value a construct's head takes: its own keyword's factory applied to it. */
  function HeadChild(c: Construct, value: Option<string>): Node
    requires ConstructTakesValue(c) ==> value.Some?
  {
    if ConstructTakesValue(c) then Single(value.value) else List(Code, [])
  }

  /** The synthesized head line reads back as the construct's keyword with the
      value it was given and no dash. */
  lemma HeadLineReparses(c: Construct, value: Option<string>)
    requires value.Some? ==> value.value != "" && !IsSpace(value.value[0]) && IsLine(value.value)
    ensures IsLine(HeadLine(c, value))
    ensures Tokenize(HeadLine(c, value)) == Token(Some(Keyword(c)), value, false)
  {
    var k := Keyword(c);
    KeywordShape(c);
    NoColonNoKey(k);
    PlainStartNoMarker(k);
    var t := Token(Some(k), value, false);
    assert Unparse(t) == "" + Body(t) == Body(t);
    if value.Some? {
      var v := value.value;
      assert Body(t) == k + (": " + v) == k + ": " + v;
    }
    ReadsBack(HeadLine(c, value), t);
  }

  /** A construct's class refuses a missing or surplus head value; otherwise it
      is born holding exactly its head entry, with the follow-ups still open,
      and it has opened its head's block when the head is a block. */
  lemma NewConstructShape(c: Construct, value: Option<string>)
    requires value.Some? ==> value.value != "" && !IsSpace(value.value[0]) && IsLine(value.value)
    ensures ConstructTakesValue(c) != value.Some? ==> NewConstruct(c, value) == Fail(FactoryArity)
    ensures ConstructTakesValue(c) == value.Some? ==>
      var h := HeadChild(c, value);
      NewConstruct(c, value) == Ok(Made(Named(c, FollowUps(c), [(Keyword(c), h)]), [FrameFor(h, [Entry(0)])]))
  {
    if ConstructTakesValue(c) == value.Some? {
      HeadLineIsLine(c, value);
      HeadLineAdded(c, value);
    }
  }

  /** A fresh construct's own head line: its keyword's factory builds the head,
      which is stored as the first entry while the keyword leaves the table. */
  lemma HeadLineAdded(c: Construct, value: Option<string>)
    requires value.Some? ==> value.value != "" && !IsSpace(value.value[0]) && IsLine(value.value)
    requires ConstructTakesValue(c) == value.Some?
    ensures IsLine(HeadLine(c, value))
    ensures var h := HeadChild(c, value);
      AddLine(Named(c, Template(c), []), HeadLine(c, value))
        == Ok(Added(Named(c, FollowUps(c), [(Keyword(c), h)]), [FrameFor(h, [Entry(0)])]))
  {
    HeadLineReparses(c, value);
    TemplateAddsHead(c);
    var n := Named(c, Template(c), []);
    var h := HeadChild(c, value);
    var line := HeadLine(c, value);
    var made := Made(h, []);
    HeadProduce(c, value);
    assert AddLine(n, line) == Attach(Consume(n, Keyword(c)), Some(Keyword(c)), false, made);
    AttachEntry(c, FollowUps(c), [], Keyword(c), false, made);
    assert [] + [(Keyword(c), h)] == [(Keyword(c), h)];
    assert [FrameFor(h, [Entry(0)])] + Shift([Entry(0)], []) == [FrameFor(h, [Entry(0)])];
  }

  /** The head line goes to the keyword's own factory, which builds the head. */
  lemma HeadProduce(c: Construct, value: Option<string>)
    requires value.Some? ==> value.value != "" && !IsSpace(value.value[0]) && IsLine(value.value)
    requires ConstructTakesValue(c) == value.Some?
    ensures IsLine(HeadLine(c, value))
    ensures Produce(Named(c, Template(c), []), HeadLine(c, value)) == Ok(Made(HeadChild(c, value), []))
  {
    HeadLineReparses(c, value);
    var n := Named(c, Template(c), []);
    assert Lookup(n, Some(Keyword(c))) == Some(MakePart(HeadPart(c)));
    assert BuildPart(HeadPart(c), value) == Ok(HeadChild(c, value));
    assert Build(MakePart(HeadPart(c)), value) == Ok(Made(HeadChild(c, value), []));
  }

  /** A construct's invariant: entries hold distinct keys, the live table and the
      used keys split the construct's template, and the table's factories are
      the template's. */
  predicate ConstructValid(n: Node) {
    && n.Named?
    && Distinct(n.entries)
    && n.table.Keys !! KeySet(n.entries)
    && n.table.Keys + KeySet(n.entries) == Template(n.construct).Keys
    && (forall k :: k in n.table ==> k in Template(n.construct) && n.table[k] == Template(n.construct)[k])
  }

  lemma NewConstructValid(c: Construct, value: Option<string>)
    requires value.Some? ==> value.value != "" && !IsSpace(value.value[0]) && IsLine(value.value)
    requires ConstructTakesValue(c) == value.Some?
    ensures NewConstruct(c, value).Ok? && ConstructValid(NewConstruct(c, value).value.child)
  {
    NewConstructShape(c, value);
    TemplateAddsHead(c);
    var es := [(Keyword(c), HeadChild(c, value))];
    var n := Named(c, FollowUps(c), es);
    assert NewConstruct(c, value).value.child == n;
    assert es[0].0 == Keyword(c);
    assert KeySet(es) == {Keyword(c)};
    assert Distinct(es);
    assert forall k :: k in n.table ==> k in Template(c) && n.table[k] == Template(c)[k];
  }

  /** A construct accepts a line exactly when it is undashed, its key is still
      in the table, and the key's factory takes a value exactly when the line
      has one. */
  lemma ConstructAcceptsIff(n: Node, line: string)
    requires n.Named? && IsLine(line)
    ensures var t := Tokenize(line);
      AddLine(n, line).Ok? <==>
        !t.dashed && t.key.Some? && t.key.value in n.table && PartTakesValue(n.table[t.key.value]) == t.value.Some?
  {
    NamedProduce(n, line);
  }

  /** A refused line names why: a dash, an unknown or used keyword, or a factory
      called with the wrong number of arguments. */
  lemma ConstructRefusal(n: Node, line: string)
    requires n.Named? && IsLine(line)
    ensures var t := Tokenize(line);
      && (t.dashed ==> AddLine(n, line) == Fail(DashNotAllowed))
      && (!t.dashed && (t.key.None? || t.key.value !in n.table) ==> AddLine(n, line) == Fail(UnknownKeyword))
      && ((!t.dashed && t.key.Some? && t.key.value in n.table && PartTakesValue(n.table[t.key.value]) != t.value.Some?)
          ==> AddLine(n, line) == Fail(FactoryArity))
  {
    NamedProduce(n, line);
  }

  /** What a NamedBlock's factories produce for a line: a leaf or an empty
      CodeBlock or CatchBlock, which opens nothing further. */
  lemma NamedProduce(n: Node, line: string)
    requires n.Named? && IsLine(line)
    ensures var t := Tokenize(line);
      && (t.key.None? || t.key.value !in n.table ==> Produce(n, line) == Fail(UnknownKeyword))
      && (t.key.Some? && t.key.value in n.table ==>
            var b := BuildPart(n.table[t.key.value], t.value);
            && (Produce(n, line).Ok? <==> b.Ok?)
            && (b.Ok? ==> Produce(n, line) == Ok(Made(b.value, [])))
            && (b.Fail? ==> Produce(n, line) == Fail(b.error)))
  {
    var t := Tokenize(line);
    TokenShape(line);
    if t.key.Some? && t.key.value in n.table {
      assert Lookup(n, t.key) == Some(MakePart(n.table[t.key.value]));
    }
  }

  /** Each accepted line uses up its keyword: it leaves the table, and the
      child its factory builds is appended under it after the earlier
      entries. The invariant is kept. */
  lemma ConstructUsesKeyword(n: Node, line: string)
    requires ConstructValid(n) && IsLine(line)
    requires AddLine(n, line).Ok?
    ensures var t := Tokenize(line);
      var m := AddLine(n, line).value.node;
      && t.key.Some? && t.key.value in n.table
      && ConstructValid(m) && m.construct == n.construct
      && m.table == n.table - {t.key.value}
      && |m.entries| == |n.entries| + 1
      && m.entries[..|n.entries|] == n.entries
      && m.entries[|n.entries|].0 == t.key.value
      && BuildPart(n.table[t.key.value], t.value).Ok?
      && m.entries[|n.entries|].1 == BuildPart(n.table[t.key.value], t.value).value
  {
    var t := Tokenize(line);
    NamedProduce(n, line);
    ConstructAcceptsIff(n, line);
    var k := t.key.value;
    var m := AddLine(n, line).value.node;
    var child := BuildPart(n.table[k], t.value).value;
    assert AddLine(n, line) == Attach(Consume(n, k), t.key, false, Made(child, []));
    assert k !in KeySet(n.entries);
    forall j | 0 <= j < |n.entries|
      ensures n.entries[j].0 != k
    {
      assert n.entries[j].0 in KeySet(n.entries);
    }
    assert Find(n.entries, k) == |n.entries|;
    assert m.entries == Assign(n.entries, k, child);
    AssignDistinct(n.entries, k, child);
  }

  /** A keyword a construct has already used is refused from then on. */
  lemma ConstructNoRepeat(n: Node, line: string, again: string)
    requires ConstructValid(n) && IsLine(line) && IsLine(again)
    requires Tokenize(again).key == Tokenize(line).key
    ensures AddLine(n, line).Ok? ==> AddLine(AddLine(n, line).value.node, again).Fail?
  {
    if AddLine(n, line).Ok? {
      ConstructUsesKeyword(n, line);
      ConstructAcceptsIff(AddLine(n, line).value.node, again);
    }
  }

  /** A valid construct is done exactly when every keyword of its template has been used. */
  lemma ConstructDoneIff(n: Node)
    requires ConstructValid(n)
    ensures IsDone(n) <==> Template(n.construct).Keys <= KeySet(n.entries)
  {
    if Template(n.construct).Keys <= KeySet(n.entries) {
      assert n.table.Keys <= KeySet(n.entries);
      assert n.table.Keys == n.table.Keys * KeySet(n.entries);
    }
  }

  /** A Do construct has no follow-ups, so it is done as soon as it is built;
      every other construct still waits for a follow-up. */
  lemma OnlyDoIsBornDone(c: Construct, value: Option<string>)
    requires value.Some? ==> value.value != "" && !IsSpace(value.value[0]) && IsLine(value.value)
    requires ConstructTakesValue(c) == value.Some?
    ensures NewConstruct(c, value).Ok? && (IsDone(NewConstruct(c, value).value.child) <==> c == Do)
  {
    NewConstructShape(c, value);
    var m := Named(c, FollowUps(c), [(Keyword(c), HeadChild(c, value))]);
    assert NewConstruct(c, value).value.child == m;
  }

  // ---------------------------------------------------------------------
  // ListBlocks

  /** A ListBlock keeps its kind and only ever appends one item per line. */
  lemma ListAppends(n: Node, line: string)
    requires n.List? && IsLine(line)
    requires AddLine(n, line).Ok?
    ensures var m := AddLine(n, line).value.node;
      && m.List? && m.kind == n.kind
      && |m.items| == |n.items| + 1
      && m.items[..|n.items|] == n.items
  {
    var m := AddLine(n, line).value.node;
    assert m.items[..|n.items|] == n.items;
  }

  /** A ListBlock refuses dashes; a keyword of its table starts a construct,
      which must get a head value exactly when it takes one. */
  lemma ListKeywordLine(n: Node, line: string)
    requires n.List? && IsLine(line)
    requires var t := Tokenize(line); !t.dashed && t.key.Some? && t.key.value in ListTable(n.kind)
    ensures var t := Tokenize(line);
      var c := ListTable(n.kind)[t.key.value];
      && (AddLine(n, line).Ok? <==> ConstructTakesValue(c) == t.value.Some?)
      && (AddLine(n, line).Ok? ==>
            var h := HeadChild(c, t.value);
            var at := [Item(|n.items|)];
            AddLine(n, line) == Ok(Added(List(n.kind, n.items + [Named(c, FollowUps(c), [(Keyword(c), h)])]),
                                         [Open(at), ShiftFrame(at, FrameFor(h, [Entry(0)]))])))
  {
    var t := Tokenize(line);
    TokenShape(line);
    var c := ListTable(n.kind)[t.key.value];
    NewConstructShape(c, t.value);
    assert Lookup(n, t.key) == Some(MakeConstruct(c));
    assert Produce(n, line) == NewConstruct(c, t.value);
    if ConstructTakesValue(c) == t.value.Some? {
      var h := HeadChild(c, t.value);
      var m := Named(c, FollowUps(c), [(Keyword(c), h)]);
      var made := Made(m, [FrameFor(h, [Entry(0)])]);
      assert Produce(n, line) == Ok(made);
      assert RepeatKeys(n) && !AllowDashes(n);
      assert AddLine(n, line) == Attach(n, t.key, false, made);
      AttachAppend(n.kind, n.items, t.key, false, made);
      PushedPair([Item(|n.items|)], m, FrameFor(h, [Entry(0)]));
    }
  }

  /** add_child on a NamedBlock with a key it has not stored yet appends the entry. */
  lemma AttachEntry(c: Construct, table: map<string, Part>, es: seq<(string, Node)>, k: string, dashed: bool, made: Made)
    requires k !in KeySet(es)
    ensures Attach(Named(c, table, es), Some(k), dashed, made)
      == Ok(Added(Named(c, table, es + [(k, made.child)]), [FrameFor(made.child, [Entry(|es|)])] + Shift([Entry(|es|)], made.children)))
  {
    forall j | 0 <= j < |es|
      ensures es[j].0 != k
    {
      assert es[j].0 in KeySet(es);
    }
    assert Find(es, k) == |es|;
  }

  lemma PushedPair(at: Path, m: Node, f: Frame)
    requires !IsLeaf(m)
    ensures [FrameFor(m, at)] + Shift(at, [f]) == [Open(at), ShiftFrame(at, f)]
  {
  }

  /** add_child on a ListBlock appends the child itself unless it must be wrapped. */
  lemma AttachAppend(kind: ListKind, items: seq<Node>, key: Option<string>, dashed: bool, made: Made)
    requires !(Truthy(key) && (made.child.Single? || made.child.Orb?))
    ensures Attach(List(kind, items), key, dashed, made)
      == Ok(Added(List(kind, items + [made.child]), [FrameFor(made.child, [Item(|items|)])] + Shift([Item(|items|)], made.children)))
  {
  }

  /** Any other undashed line is a statement in a CodeBlock and refused by a
      CatchBlock: a bare scalar, a key with raw text, or a key alone, which
      opens an OrbObject wrapped under that key. */
  lemma ListOtherLine(n: Node, line: string)
    requires n.List? && IsLine(line)
    requires var t := Tokenize(line); !t.dashed && (t.key.None? || t.key.value !in ListTable(n.kind))
    ensures n.kind == Catch ==> AddLine(n, line) == Fail(UnknownKeyword)
    ensures n.kind == Code ==>
      var t := Tokenize(line);
      var i := |n.items|;
      && AddLine(n, line).Ok?
      && var a := AddLine(n, line).value;
      && (t.key.None? ==> a.node.items[i] == Single(Rest(line)) && a.frames == [Leaf(Single(Rest(line)))])
      && (t.key.Some? && t.value.Some? ==>
            a.node.items[i] == Pair(t.key.value, Text(t.value.value)) && a.frames == [Leaf(a.node.items[i])])
      && (t.key.Some? && t.value.None? ==>
            a.node.items[i] == Pair(t.key.value, Sub(Orb(Unset))) && a.frames == [Open([Item(i), Inner])])
  {
    var t := Tokenize(line);
    TokenShape(line);
    assert Lookup(n, t.key) == None;
    if n.kind == Code {
      var made := Made(Statement(line), []);
      assert Produce(n, line) == Ok(made);
      assert AddLine(n, line) == Attach(n, t.key, false, made);
      assert Shift([Item(|n.items|)], []) == [] && Shift([Item(|n.items|), Inner], []) == [];
    } else {
      assert Produce(n, line) == Fail(UnknownKeyword);
    }
  }

  // ---------------------------------------------------------------------
  // OrbObjects

  /** An OrbObject's table is empty, so every line goes to `statement` and the
      outcome is the outcome of its add_child. */
  lemma OrbLine(n: Node, line: string)
    requires n.Orb? && IsLine(line)
    ensures var t := Tokenize(line);
      var s := Statement(line);
      var p := AddChild(n, t.key, s, t.dashed);
      && (AddLine(n, line).Ok? <==> p.Ok?)
      && (p.Ok? ==> AddLine(n, line).value.node == p.value.node)
      && (p.Fail? ==> AddLine(n, line) == Fail(p.error))
  {
    var t := Tokenize(line);
    TokenShape(line);
    assert Lookup(n, t.key) == None;
  }

  /** The first line fixes an uncommitted OrbObject's mode: a key (dashed or
      not) selects dict mode, a keyless dashed line list mode, and a keyless
      plain line is refused. */
  lemma OrbFirstLine(line: string)
    requires IsLine(line)
    ensures var t := Tokenize(line);
      var r := AddLine(Orb(Unset), line);
      && (t.key.Some? ==> r.Ok? && r.value.node.mode.Keyed?)
      && (t.key.None? && t.dashed ==> r.Ok? && r.value.node.mode.Listed?)
      && (t.key.None? && !t.dashed ==> r == Fail(ModeViolation))
  {
    var t := Tokenize(line);
    TokenShape(line);
    OrbLine(Orb(Unset), line);
    var p := AddChild(Orb(Unset), t.key, Statement(line), t.dashed);
    if t.key.Some? {
      assert CheckInit(Unset, t.key, t.dashed) == Ok(Keyed([]));
    } else if t.dashed {
      assert CheckInit(Unset, t.key, t.dashed) == Ok(Listed([]));
    } else {
      assert CheckInit(Unset, t.key, t.dashed) == Fail(ModeViolation);
      assert p == Fail(ModeViolation);
    }
  }

  /** Once committed, an OrbObject never changes mode. */
  lemma OrbModeSticks(n: Node, line: string)
    requires n.Orb? && n.mode != Unset && IsLine(line)
    requires AddLine(n, line).Ok?
    ensures AddLine(n, line).value.node.mode.Listed? <==> n.mode.Listed?
    ensures AddLine(n, line).value.node.mode.Keyed? <==> n.mode.Keyed?
  {
    TokenShape(line);
    OrbLine(n, line);
  }

  /** A list-mode OrbObject accepts every line and appends it. */
  lemma OrbListAppends(n: Node, line: string)
    requires n.Orb? && n.mode.Listed? && IsLine(line)
    ensures AddLine(n, line).Ok?
    ensures var m := AddLine(n, line).value.node;
      && m.mode.Listed?
      && |m.mode.items| == |n.mode.items| + 1
      && m.mode.items[..|n.mode.items|] == n.mode.items
    ensures var t := Tokenize(line);
      var last := AddLine(n, line).value.node.mode.items[|n.mode.items|];
      && (t.key.None? ==> t.value.Some? && last == Single(t.value.value))
      && (t.key.Some? && t.value.Some? ==> last == Pair(t.key.value, Text(t.value.value)))
      && (t.key.Some? && t.value.None? ==> last == Pair(t.key.value, Sub(Orb(Unset))))
  {
    TokenShape(line);
    OrbLine(n, line);
    var m := AddLine(n, line).value.node;
    assert m.mode.items[..|n.mode.items|] == n.mode.items;
  }

  /** A dict-mode OrbObject accepts exactly the undashed keyed lines, keeps its
      keys distinct, and afterwards holds the line's key. */
  lemma OrbDictLine(n: Node, line: string)
    requires n.Orb? && n.mode.Keyed? && IsLine(line)
    ensures var t := Tokenize(line);
      AddLine(n, line).Ok? <==> t.key.Some? && !t.dashed
    ensures AddLine(n, line).Ok? && Distinct(n.mode.fields) ==>
      var m := AddLine(n, line).value.node;
      && m.mode.Keyed? && Distinct(m.mode.fields)
      && KeySet(m.mode.fields) == KeySet(n.mode.fields) + {Tokenize(line).key.value}
    ensures AddLine(n, line).Ok? ==>
      var t := Tokenize(line);
      var m := AddLine(n, line).value.node;
      var i := Find(n.mode.fields, t.key.value);
      && m.mode.Keyed? && i < |m.mode.fields| && m.mode.fields[i].0 == t.key.value
      && (t.value.Some? ==> m.mode.fields[i].1 == Text(t.value.value))
      && (t.value.None? ==> m.mode.fields[i].1 == Sub(Orb(Unset)))
  {
    var t := Tokenize(line);
    TokenShape(line);
    OrbLine(n, line);
    if AddLine(n, line).Ok? && Distinct(n.mode.fields) {
      var s := Statement(line);
      var wrapped := if !s.Pair? then Pair(t.key.value, Sub(s)) else s;
      var v := if wrapped.Orb? then Sub(wrapped) else wrapped.val;
      assert AddLine(n, line).value.node.mode.fields == Assign(n.mode.fields, t.key.value, v);
      AssignDistinct(n.mode.fields, t.key.value, v);
    }
    if AddLine(n, line).Ok? {
      var s := Statement(line);
      var wrapped := if !s.Pair? then Pair(t.key.value, Sub(s)) else s;
      var v := if wrapped.Orb? then Sub(wrapped) else wrapped.val;
      assert AddLine(n, line).value.node.mode.fields == Assign(n.mode.fields, t.key.value, v);
    }
  }
}

=== FILE: macros.dfy ===
/** The node family of macroparser.py: leaves (SingleValue, KeyPair), the
    ListBlock family (CodeBlock, CatchBlock), the NamedBlock constructs (the
    only DictBlocks the source creates) and the mode-deferring OrbObject,
    together with their fixed grammar tables and the per-node queries the
    interactive loop makes (is_done, get_kwords, indent). */
module Macros {

  /** The NamedBlock subclasses, by the keyword that opens them. */
  datatype Construct = If | While | For | Try | With | As | Do

  /** The factories a construct's table holds: SingleValue, CodeBlock, CatchBlock. */
  datatype Part = ScalarPart | CodePart | CatchPart

  /** The two ListBlock subclasses. */
  datatype ListKind = Code | Catch

  datatype Node =
    | Single(expr: string)                      // SingleValue
    | Pair(key: string, val: Value)             // KeyPair
    | List(kind: ListKind, items: seq<Node>)    // ListBlock: CodeBlock or CatchBlock
    | Named(construct: Construct, table: map<string, Part>, entries: seq<(string, Node)>)
                                                // NamedBlock: live table and ordered blocks
    | Orb(mode: OrbMode)                        // OrbObject

  /** A KeyPair's value: raw text, or a node (only ever an OrbObject). */
  datatype Value = Text(text: string) | Sub(node: Node)

  /** An OrbObject's state: neither `lines` nor `blocks` set, `lines` set, `blocks` set.
      Dict mode keeps `child.value` per key, so raw text or a nested OrbObject. */
  datatype OrbMode = Unset | Listed(items: seq<Node>) | Keyed(fields: seq<(string, Value)>)

  function Keyword(c: Construct): string {
    match c
    case If => "If"
    case While => "While"
    case For => "For"
    case Try => "Try"
    case With => "With"
    case As => "As"
    case Do => "Do"
  }

  /** Whether the construct's class constructor takes the head value
      (IfBlock(condition), ...) or no argument (ExceptionBlock(), DoBlock()). */
  predicate ConstructTakesValue(c: Construct) {
    !(c == Try || c == Do)
  }

  /** Whether the factory takes the line's value: SingleValue(expression) does,
      CodeBlock() and CatchBlock() do not. */
  predicate PartTakesValue(p: Part) {
    p == ScalarPart
  }

  /** The `type` argument a construct passes to NamedBlock for its own keyword. */
  function HeadPart(c: Construct): Part {
    if c == Try || c == Do then CodePart else ScalarPart
  }

  /** The follow-up table a construct passes to NamedBlock. Only `Do` has
      none, a construct never lists its own keyword, and only `In` and `As`
      take a value. */
  function FollowUps(c: Construct): (r: map<string, Part>)
    ensures r == map[] <==> c == Do
    ensures Keyword(c) !in r
    ensures forall k :: k in r && r[k] == ScalarPart ==> k == "In" || k == "As"
  {
    var r := match c
      case If => map["Then" := CodePart, "Else" := CodePart]
      case While => map["Do" := CodePart]
      case For => map["In" := ScalarPart, "Do" := CodePart]
      case With => map["As" := ScalarPart, "Do" := CodePart]
      case As => map["Do" := CodePart]
      case Try => map["Catch" := CatchPart, "Else" := CodePart]
      case Do => map[];
    assert c != Do ==> "Then" in r || "Do" in r || "Catch" in r;
    r
  }

  /** The table a fresh NamedBlock starts with: the follow-ups plus its own keyword. */
  function Template(c: Construct): map<string, Part> {
    FollowUps(c)[Keyword(c) := HeadPart(c)]
  }

  /** A ListBlock's table: get_macro_dicts() for a CodeBlock, With/As for a CatchBlock.
      ListBlocks never remove entries, so the table depends on the kind alone.
      Each keyword names the construct whose own keyword it is. */
  function ListTable(kind: ListKind): (r: map<string, Construct>)
    ensures r.Keys == if kind == Code then {"If", "While", "For", "Try", "Do"} else {"With", "As"}
    ensures forall k :: k in r ==> Keyword(r[k]) == k
  {
    match kind
    case Code => map["If" := If, "While" := While, "For" := For, "Try" := Try, "Do" := Do]
    case Catch => map["With" := With, "As" := As]
  }

  predicate IsLeaf(n: Node) {
    n.Single? || n.Pair?
  }

  /** The MacroBlock subclasses: the nodes that consume lines. */
  predicate IsBlock(n: Node) {
    n.List? || n.Named? || n.Orb?
  }

  /** Whether the block has a default factory (`statement`): CodeBlock and
      OrbObject do, CatchBlock and NamedBlock do not. */
  predicate HasFallback(n: Node) {
    (n.List? && n.kind == Code) || n.Orb?
  }

  /** The live keywords of a node (get_kwords). An OrbObject's table is empty;
      leaves have none. */
  function Keywords(n: Node): (r: set<string>)
    ensures n.List? && n.kind == Code ==> r == {"If", "While", "For", "Try", "Do"}
    ensures n.List? && n.kind == Catch ==> r == {"With", "As"}
    ensures IsLeaf(n) || n.Orb? ==> r == {}
    ensures n.Named? ==> r == n.table.Keys
  {
    match n
    case List(kind, _) => ListTable(kind).Keys
    case Named(_, table, _) => table.Keys
    case _ => {}
  }

  /** is_done: leaves are done at once; a block is done when its table is empty
      and it has no default factory. Among the blocks that makes exactly the
      NamedBlocks with an empty table done: CodeBlock and OrbObject have a
      default factory, and CatchBlock never pops its two keywords. */
  predicate IsDone(n: Node)
    ensures IsBlock(n) ==> (IsDone(n) <==> n.Named? && n.table == map[])
    ensures IsLeaf(n) ==> IsDone(n)
  {
    assert n.List? ==> "If" in Keywords(n) || "With" in Keywords(n);
    IsLeaf(n) || (Keywords(n) == {} && !HasFallback(n))
  }

  /** The indent property: 4 for a ListBlock, 2 or 4 for an OrbObject by mode,
      0 for every other node. */
  function Indent(n: Node): (r: int)
    ensures r == 4 <==> n.List? || (n.Orb? && n.mode.Listed?)
    ensures r == 2 <==> n.Orb? && !n.mode.Listed?
    ensures r == 0 <==> !n.List? && !n.Orb?
  {
    match n
    case List(_, _) => 4
    case Orb(mode) => if mode.Listed? then 4 else 2
    case _ => 0
  }

  /** A construct's own keyword is never one of its follow-ups, so the head
      entry adds exactly one key to the table. */
  lemma TemplateAddsHead(c: Construct)
    ensures Keyword(c) !in FollowUps(c)
    ensures Template(c).Keys == FollowUps(c).Keys + {Keyword(c)}
    ensures Template(c) - {Keyword(c)} == FollowUps(c)
  {
    assert (Template(c) - {Keyword(c)}).Keys == FollowUps(c).Keys;
  }
}

=== FILE: ordered.dfy ===
/** utils.UnsortableOrderedDict, as the parser uses it: an association list in
    insertion order where assigning an existing key replaces its value in place. */
module Ordered {

  /** The keys of an association list, as a set. */
  function KeySet<V>(es: seq<(string, V)>): set<string> {
    set i | 0 <= i < |es| :: es[i].0
  }

  /** No key occurs twice. */
  predicate Distinct<V>(es: seq<(string, V)>) {
    forall i, j :: 0 <= i < j < |es| ==> es[i].0 != es[j].0
  }

  /** Position of `k`, or the length when it is absent. */
  function Find<V>(es: seq<(string, V)>, k: string): (i: nat)
    ensures i <= |es|
    ensures i < |es| ==> es[i].0 == k
    ensures forall j :: 0 <= j < i ==> es[j].0 != k
  {
    if es == [] then 0
    else if es[0].0 == k then 0
    else 1 + Find(es[1..], k)
  }

  /** `d[k] = v`: a new key goes last, an existing key keeps its position. */
  function Assign<V>(es: seq<(string, V)>, k: string, v: V): (r: seq<(string, V)>)
    ensures Find(es, k) < |r| && r[Find(es, k)] == (k, v)
    ensures |r| == if Find(es, k) < |es| then |es| else |es| + 1
    ensures forall j :: 0 <= j < |es| && j != Find(es, k) ==> r[j] == es[j]
  {
    var i := Find(es, k);
    if i < |es| then es[i := (k, v)] else es + [(k, v)]
  }

  /** Assignment keeps the keys distinct, and the key set grows by exactly `k`. */
  lemma AssignDistinct<V>(es: seq<(string, V)>, k: string, v: V)
    requires Distinct(es)
    ensures Distinct(Assign(es, k, v))
    ensures KeySet(Assign(es, k, v)) == KeySet(es) + {k}
  {
    var r := Assign(es, k, v);
    var f := Find(es, k);
    forall i, j | 0 <= i < j < |r|
      ensures r[i].0 != r[j].0
    {
      if j == f && f == |es| {
        assert r[i] == es[i];
      } else if i == f {
        assert r[j] == es[j];
      } else if j == f {
        assert r[i] == es[i];
      } else {
        assert r[i] == es[i] && r[j] == es[j];
      }
    }
    var before := KeySet(es);
    var after := KeySet(r);
    forall x | x in after
      ensures x in before + {k}
    {
      var i :| 0 <= i < |r| && r[i].0 == x;
      if i != f {
        assert r[i] == es[i];
      }
    }
    forall x | x in before + {k}
      ensures x in after
    {
      if x == k {
        assert r[f].0 == x;
      } else {
        var i :| 0 <= i < |es| && es[i].0 == x;
        assert i != f;
        assert r[i] == es[i];
      }
    }
  }
}

=== FILE: paths.dfy ===
/** Addressing nodes inside an immutable tree.

    The interactive loop keeps the very node objects that sit inside the tree on
    its stack and mutates them in place. Here a stack entry is a path from the
    root instead: reading the node at a path and writing a new node back at that
    path together play the role of the shared object. */
module Paths {
  import opened Wrappers
  import opened Macros

  /** One step down: the i-th item of a list (ListBlock lines or a list-mode
      OrbObject), the value of the i-th entry of a NamedBlock or dict-mode
      OrbObject, or the node inside a KeyPair. */
  datatype Step = Item(i: nat) | Entry(i: nat) | Inner

  type Path = seq<Step>

  function Child(n: Node, s: Step): Option<Node> {
    match s
    case Item(i) =>
      (match n
       case List(_, items) => if i < |items| then Some(items[i]) else None
       case Orb(Listed(items)) => if i < |items| then Some(items[i]) else None
       case _ => None)
    case Entry(i) =>
      (match n
       case Named(_, _, entries) => if i < |entries| then Some(entries[i].1) else None
       case Orb(Keyed(fields)) => if i < |fields| && fields[i].1.Sub? then Some(fields[i].1.node) else None
       case _ => None)
    case Inner =>
      (match n
       case Pair(_, Sub(m)) => Some(m)
       case _ => None)
  }

  /** `n` with the child at step `s` replaced by `c` (unchanged when there is none). */
  function Replace(n: Node, s: Step, c: Node): Node {
    match s
    case Item(i) =>
      (match n
       case List(kind, items) => if i < |items| then List(kind, items[i := c]) else n
       case Orb(Listed(items)) => if i < |items| then Orb(Listed(items[i := c])) else n
       case _ => n)
    case Entry(i) =>
      (match n
       case Named(con, table, entries) =>
         if i < |entries| then Named(con, table, entries[i := (entries[i].0, c)]) else n
       case Orb(Keyed(fields)) =>
         if i < |fields| && fields[i].1.Sub? then Orb(Keyed(fields[i := (fields[i].0, Sub(c))])) else n
       case _ => n)
    case Inner =>
      (match n
       case Pair(k, Sub(_)) => Pair(k, Sub(c))
       case _ => n)
  }

  function Get(n: Node, p: Path): Option<Node>
    decreases |p|
  {
    if p == [] then Some(n)
    else match Child(n, p[0])
      case None => None
      case Some(c) => Get(c, p[1..])
  }

  function Set(n: Node, p: Path, x: Node): Node
    decreases |p|
  {
    if p == [] then x
    else match Child(n, p[0])
      case None => n
      case Some(c) => Replace(n, p[0], Set(c, p[1..], x))
  }

  /** Same constructor, and for blocks the same ListBlock kind or construct. */
  predicate SameShape(a: Node, b: Node) {
    match a
    case Single(_) => b.Single?
    case Pair(_, _) => b.Pair?
    case List(kind, _) => b.List? && b.kind == kind
    case Named(c, _, _) => b.Named? && b.construct == c
    case Orb(_) => b.Orb?
  }

  lemma ReplaceChild(n: Node, s: Step, c: Node)
    requires Child(n, s).Some?
    ensures Child(Replace(n, s, c), s) == Some(c)
    ensures SameShape(n, Replace(n, s, c))
  {
  }

  /** Replacing one child leaves every other child where it was. */
  lemma ReplaceOther(n: Node, s: Step, t: Step, c: Node)
    requires s != t
    ensures Child(Replace(n, s, c), t) == Child(n, t)
  {
  }

  /** Writing below the root keeps the root's constructor and kind. */
  lemma SetKeepsShape(n: Node, p: Path, x: Node)
    requires p != []
    ensures SameShape(n, Set(n, p, x))
  {
    match Child(n, p[0])
    case None =>
    case Some(c) => ReplaceChild(n, p[0], Set(c, p[1..], x));
  }

  /** Reading back what was just written. */
  lemma {:induction false} GetSet(n: Node, p: Path, x: Node)
    requires Get(n, p).Some?
    ensures Get(Set(n, p, x), p) == Some(x)
    decreases |p|
  {
    if p != [] {
      var c := Child(n, p[0]).value;
      var c' := Set(c, p[1..], x);
      GetSet(c, p[1..], x);
      ReplaceChild(n, p[0], c');
      assert Set(n, p, x) == Replace(n, p[0], c');
      assert Get(Set(n, p, x), p) == Get(c', p[1..]);
    }
  }

  /** Following `p` and then `q` is following `p + q`. */
  lemma {:induction false} GetAppend(n: Node, p: Path, q: Path)
    ensures Get(n, p + q) == match Get(n, p) case None => None case Some(m) => Get(m, q)
    decreases |p|
  {
    if p == [] {
      assert p + q == q;
    } else {
      assert (p + q)[0] == p[0];
      assert (p + q)[1..] == p[1..] + q;
      match Child(n, p[0])
      case None =>
      case Some(c) => GetAppend(c, p[1..], q);
    }
  }

  /** Writing at `q + r` changes the node at `q` by writing at `r` inside it. */
  lemma {:induction false} SetThrough(n: Node, q: Path, r: Path, x: Node)
    requires Get(n, q).Some?
    ensures Get(Set(n, q + r, x), q) == Some(Set(Get(n, q).value, r, x))
    decreases |q|
  {
    if q == [] {
      assert q + r == r;
    } else {
      var c := Child(n, q[0]).value;
      assert (q + r)[0] == q[0];
      assert (q + r)[1..] == q[1..] + r;
      var c' := Set(c, q[1..] + r, x);
      SetThrough(c, q[1..], r, x);
      ReplaceChild(n, q[0], c');
      assert Set(n, q + r, x) == Replace(n, q[0], c');
      assert Get(Set(n, q + r, x), q) == Get(c', q[1..]);
    }
  }

  /** Nothing off the written path changes: a path that neither leads to nor
      passes through `p` reads the same node before and after. */
  lemma {:induction false} SetElsewhere(n: Node, p: Path, q: Path, x: Node)
    requires !(p <= q) && !(q <= p)
    ensures Get(Set(n, p, x), q) == Get(n, q)
    decreases |p|
  {
    assert p != [] && q != [];
    match Child(n, p[0])
    case None =>
    case Some(c) =>
      var n' := Replace(n, p[0], Set(c, p[1..], x));
      if p[0] == q[0] {
        ReplaceChild(n, p[0], Set(c, p[1..], x));
        PrefixTail(p, q);
        PrefixTail(q, p);
        SetElsewhere(c, p[1..], q[1..], x);
      } else {
        ReplaceOther(n, p[0], q[0], Set(c, p[1..], x));
      }
  }

  lemma PrefixTail(p: Path, q: Path)
    requires p != [] && q != [] && p[0] == q[0]
    ensures p <= q <==> p[1..] <= q[1..]
  {
    assert p == [p[0]] + p[1..] && q == [q[0]] + q[1..];
  }

  /** A stack entry: the path of an open block, or a leaf (SingleValue or
      KeyPair). Leaves are immutable and done as soon as they are pushed, so a
      copy stands for the object; the KeyPair a dict-mode OrbObject pushes is
      not even part of the tree. */
  datatype Frame = Open(path: Path) | Leaf(node: Node)

  /** A frame relative to a child at `at`, made relative to its parent. */
  function ShiftFrame(at: Path, f: Frame): Frame {
    match f
    case Open(q) => Open(at + q)
    case Leaf(m) => Leaf(m)
  }

  function Shift(at: Path, fs: seq<Frame>): (r: seq<Frame>)
    ensures |r| == |fs|
    ensures forall i :: 0 <= i < |fs| ==> r[i] == ShiftFrame(at, fs[i])
  {
    if fs == [] then [] else [ShiftFrame(at, fs[0])] + Shift(at, fs[1..])
  }

  predicate Resolves(root: Node, p: Path) {
    Get(root, p).Some? && IsBlock(Get(root, p).value)
  }

  /** Frames as the loop keeps them: leaves only on top, every open path
      naming a block of the tree, and each open path extending the ones below
      it (the nodes above a node on the stack are its descendants). */
  predicate Chained(root: Node, fs: seq<Frame>) {
    && (forall i :: 0 <= i < |fs| - 1 ==> fs[i].Open?)
    && (forall i :: 0 <= i < |fs| && fs[i].Open? ==> Resolves(root, fs[i].path))
    && (forall i :: 0 <= i < |fs| && fs[i].Leaf? ==> IsLeaf(fs[i].node))
    && (forall i, j :: 0 <= i < j < |fs| && fs[i].Open? && fs[j].Open? ==> fs[i].path <= fs[j].path)
  }

  /** The frame pushed for a freshly built child stored at `at`. */
  function FrameFor(child: Node, at: Path): Frame {
    if IsLeaf(child) then Leaf(child) else Open(at)
  }

  /** A child stored at `at`, followed by the frames it produced itself, is a
      chain of frames of the parent. */
  lemma ChainedChild(n: Node, at: Path, child: Node, cs: seq<Frame>)
    requires !IsLeaf(child) ==> Get(n, at) == Some(child) && IsBlock(child)
    requires Chained(child, cs)
    requires IsLeaf(child) ==> cs == []
    ensures Chained(n, [FrameFor(child, at)] + Shift(at, cs))
  {
    if IsLeaf(child) {
      assert [FrameFor(child, at)] + Shift(at, cs) == [Leaf(child)];
    } else {
      OpenedShape(at, cs);
      OpenedResolve(n, at, child, cs);
      OpenedOrder(at, cs);
    }
  }

  /** The frame of a block child, then its own frames: only the last may be a leaf. */
  lemma OpenedShape(at: Path, cs: seq<Frame>)
    requires forall i :: 0 <= i < |cs| - 1 ==> cs[i].Open?
    requires forall i :: 0 <= i < |cs| && cs[i].Leaf? ==> IsLeaf(cs[i].node)
    ensures forall i :: 0 <= i < |[Open(at)] + Shift(at, cs)| - 1 ==> ([Open(at)] + Shift(at, cs))[i].Open?
    ensures forall i :: 0 <= i < |[Open(at)] + Shift(at, cs)| && ([Open(at)] + Shift(at, cs))[i].Leaf? ==>
      IsLeaf(([Open(at)] + Shift(at, cs))[i].node)
  {
    PushedShape([Open(at)], at, cs);
  }

  /** The frame of a block child, then its own frames, name blocks of the parent. */
  lemma OpenedResolve(n: Node, at: Path, child: Node, cs: seq<Frame>)
    requires Get(n, at) == Some(child) && IsBlock(child)
    requires forall i :: 0 <= i < |cs| && cs[i].Open? ==> Resolves(child, cs[i].path)
    ensures forall i :: 0 <= i < |[Open(at)] + Shift(at, cs)| && ([Open(at)] + Shift(at, cs))[i].Open? ==>
      Resolves(n, ([Open(at)] + Shift(at, cs))[i].path)
  {
    assert Resolves(n, at);
    ShiftResolve(n, at, child, cs);
    ConcatResolve(n, [Open(at)], Shift(at, cs));
  }

  /** The frame of a block child comes before its own frames, which extend it. */
  lemma OpenedOrder(at: Path, cs: seq<Frame>)
    requires forall i, j :: 0 <= i < j < |cs| && cs[i].Open? && cs[j].Open? ==> cs[i].path <= cs[j].path
    ensures var fs := [Open(at)] + Shift(at, cs);
      forall i, j :: 0 <= i < j < |fs| && fs[i].Open? && fs[j].Open? ==> fs[i].path <= fs[j].path
  {
    ShiftOrdered(at, cs);
    ConcatOrdered([Open(at)], Shift(at, cs));
  }



  /** Feeding a line to the top block and pushing what it returns keeps the
      stack a chain: `x` replaces the top block at `p`, `fs` are its new frames. */
  lemma ChainedPush(root: Node, stack: seq<Frame>, p: Path, x: Node, fs: seq<Frame>)
    requires Chained(root, stack) && |stack| > 0 && stack[|stack| - 1] == Open(p)
    requires Get(root, p).Some? && IsBlock(x)
    requires Chained(x, fs) && |fs| > 0
    ensures Chained(Set(root, p, x), stack + Shift(p, fs))
  {
    PushedShape(stack, p, fs);
    var root' := Set(root, p, x);
    var sh := Shift(p, fs);
    BelowResolve(root, stack, p, x);
    AboveResolve(root, p, x, fs);
    ConcatResolve(root', stack, sh);
    PushedOrder(root, stack, p, x, fs);
  }

  /** Only the pushed top can be a leaf, and leaves stay leaves. */
  lemma PushedShape(stack: seq<Frame>, p: Path, fs: seq<Frame>)
    requires forall i :: 0 <= i < |stack| ==> stack[i].Open?
    requires forall i :: 0 <= i < |fs| - 1 ==> fs[i].Open?
    requires forall i :: 0 <= i < |fs| && fs[i].Leaf? ==> IsLeaf(fs[i].node)
    ensures var st := stack + Shift(p, fs);
      && (forall i :: 0 <= i < |st| - 1 ==> st[i].Open?)
      && (forall i :: 0 <= i < |st| && st[i].Leaf? ==> IsLeaf(st[i].node))
  {
    var sh := Shift(p, fs);
    var st := stack + sh;
    var n := |stack|;
    assert forall i :: n <= i < |st| ==> st[i] == sh[i - n];
    forall i | 0 <= i < |st| - 1
      ensures st[i].Open?
    {
      if i >= n {
        assert sh[i - n] == ShiftFrame(p, fs[i - n]);
      }
    }
    forall i | 0 <= i < |st| && st[i].Leaf?
      ensures IsLeaf(st[i].node)
    {
      if i >= n {
        assert sh[i - n] == ShiftFrame(p, fs[i - n]);
      }
    }
  }

  /** Two runs of frames that name blocks make one. */
  lemma ConcatResolve(root: Node, below: seq<Frame>, above: seq<Frame>)
    requires forall i :: 0 <= i < |below| && below[i].Open? ==> Resolves(root, below[i].path)
    requires forall i :: 0 <= i < |above| && above[i].Open? ==> Resolves(root, above[i].path)
    ensures var st := below + above;
      forall i :: 0 <= i < |st| && st[i].Open? ==> Resolves(root, st[i].path)
  {
    var st := below + above;
    forall i | 0 <= i < |st| && st[i].Open?
      ensures Resolves(root, st[i].path)
    {
      if i >= |below| {
        assert st[i] == above[i - |below|];
      }
    }
  }

  /** The frames below the top still name blocks once the top block is replaced. */
  lemma BelowResolve(root: Node, stack: seq<Frame>, p: Path, x: Node)
    requires Chained(root, stack) && |stack| > 0 && stack[|stack| - 1] == Open(p)
    requires Get(root, p).Some? && IsBlock(x)
    ensures forall i :: 0 <= i < |stack| && stack[i].Open? ==> Resolves(Set(root, p, x), stack[i].path)
  {
    BelowTop(root, stack, p);
    forall i | 0 <= i < |stack|
      ensures Resolves(Set(root, p, x), stack[i].path)
    {
      AncestorResolves(root, stack[i].path, p, x);
    }
  }

  /** The frames the new top opened name blocks once it is stored at `p`. */
  lemma AboveResolve(root: Node, p: Path, x: Node, fs: seq<Frame>)
    requires Get(root, p).Some? && IsBlock(x)
    requires Chained(x, fs)
    ensures forall i :: 0 <= i < |fs| && Shift(p, fs)[i].Open? ==> Resolves(Set(root, p, x), Shift(p, fs)[i].path)
  {
    GetSet(root, p, x);
    ShiftResolve(Set(root, p, x), p, x, fs);
  }

  /** Frames relative to a node stored at `at` name blocks once shifted by `at`. */
  lemma ShiftResolve(n: Node, at: Path, x: Node, fs: seq<Frame>)
    requires Get(n, at) == Some(x)
    requires forall i :: 0 <= i < |fs| && fs[i].Open? ==> Resolves(x, fs[i].path)
    ensures forall i :: 0 <= i < |fs| && Shift(at, fs)[i].Open? ==> Resolves(n, Shift(at, fs)[i].path)
  {
    var sh := Shift(at, fs);
    forall i | 0 <= i < |fs| && sh[i].Open?
      ensures Resolves(n, sh[i].path)
    {
      assert sh[i] == ShiftFrame(at, fs[i]);
      GetAppend(n, at, fs[i].path);
    }
  }

  /** The pushed frames extend the top path, so the stack's paths stay ordered. */
  lemma PushedOrder(root: Node, stack: seq<Frame>, p: Path, x: Node, fs: seq<Frame>)
    requires Chained(root, stack) && |stack| > 0 && stack[|stack| - 1] == Open(p)
    requires Chained(x, fs)
    ensures var st := stack + Shift(p, fs);
      forall i, j :: 0 <= i < j < |st| && st[i].Open? && st[j].Open? ==> st[i].path <= st[j].path
  {
    var sh := Shift(p, fs);
    BelowTop(root, stack, p);
    ShiftOrdered(p, fs);
    forall i, j | 0 <= i < |stack| && 0 <= j < |sh| && sh[j].Open?
      ensures stack[i].path <= sh[j].path
    {
      assert stack[i].path <= p;
    }
    ConcatOrdered(stack, sh);
  }

  /** Shifted frames extend the shift path and keep their order. */
  lemma ShiftOrdered(p: Path, fs: seq<Frame>)
    requires forall i, j :: 0 <= i < j < |fs| && fs[i].Open? && fs[j].Open? ==> fs[i].path <= fs[j].path
    ensures forall i :: 0 <= i < |fs| && Shift(p, fs)[i].Open? ==> p <= Shift(p, fs)[i].path
    ensures forall i, j :: 0 <= i < j < |fs| && Shift(p, fs)[i].Open? && Shift(p, fs)[j].Open? ==>
      Shift(p, fs)[i].path <= Shift(p, fs)[j].path
  {
    var sh := Shift(p, fs);
    forall i | 0 <= i < |fs| && sh[i].Open?
      ensures p <= sh[i].path
    {
      assert sh[i] == ShiftFrame(p, fs[i]);
    }
    forall i, j | 0 <= i < j < |fs| && sh[i].Open? && sh[j].Open?
      ensures sh[i].path <= sh[j].path
    {
      assert sh[i] == ShiftFrame(p, fs[i]) && sh[j] == ShiftFrame(p, fs[j]);
      assert fs[i].path <= fs[j].path;
    }
  }

  /** Two ordered runs of frames, the first below the second, make one. */
  lemma ConcatOrdered(below: seq<Frame>, above: seq<Frame>)
    requires forall i, j :: 0 <= i < j < |below| && below[i].Open? && below[j].Open? ==> below[i].path <= below[j].path
    requires forall i, j :: 0 <= i < j < |above| && above[i].Open? && above[j].Open? ==> above[i].path <= above[j].path
    requires forall i, j :: 0 <= i < |below| && 0 <= j < |above| && below[i].Open? && above[j].Open? ==>
      below[i].path <= above[j].path
    ensures forall i, j :: 0 <= i < j < |below + above| && (below + above)[i].Open? && (below + above)[j].Open? ==>
      (below + above)[i].path <= (below + above)[j].path
  {
    var st := below + above;
    var n := |below|;
    forall i, j | 0 <= i < j < |st| && st[i].Open? && st[j].Open?
      ensures st[i].path <= st[j].path
    {
      if j < n {
        assert st[i] == below[i] && st[j] == below[j];
      } else if i < n {
        assert st[i] == below[i] && st[j] == above[j - n];
      } else {
        assert st[i] == above[i - n] && st[j] == above[j - n];
      }
    }
  }

  /** Every frame of a chain is open and lies on the way to the top path. */
  lemma BelowTop(root: Node, stack: seq<Frame>, p: Path)
    requires Chained(root, stack) && |stack| > 0 && stack[|stack| - 1] == Open(p)
    ensures forall i :: 0 <= i < |stack| ==> stack[i].Open? && stack[i].path <= p
  {
    var n := |stack|;
    forall i | 0 <= i < n
      ensures stack[i].Open? && stack[i].path <= p
    {
      if i < n - 1 {
        assert stack[i].Open? && stack[n - 1].Open?;
      }
    }
  }

  /** A block on the way to `p` is still a block after writing a block at `p`. */
  lemma AncestorResolves(root: Node, q: Path, p: Path, x: Node)
    requires Resolves(root, q) && q <= p && Get(root, p).Some? && IsBlock(x)
    ensures Resolves(Set(root, p, x), q)
  {
    if q == p {
      GetSet(root, p, x);
    } else {
      var r := p[|q|..];
      assert p == q + r;
      SetThrough(root, q, r, x);
      SetKeepsShape(Get(root, q).value, r, x);
    }
  }

  /** Dropping the top frame keeps the stack a chain. */
  lemma ChainedPop(root: Node, stack: seq<Frame>)
    requires Chained(root, stack) && |stack| > 0
    ensures Chained(root, stack[..|stack| - 1])
  {
  }
}

=== FILE: repl.dfy ===
/** The interactive loop of mpl_repl.py: a stack of open nodes over the tree
    rooted at a CodeBlock. Each round pops a finished top node, or shows a
    prompt and reads a line: an empty line closes the top node, any other line
    is fed to it and whatever it opened is pushed. When the stack is empty the
    root is serialized. The terminal (readline, raw_input, printing and the
    YAML dump) is replaced by a sequence of input lines and returned values. */
module Repl {
  import opened Wrappers
  import opened Tokenizer
  import opened Macros
  import opened Paths
  import opened Grammar
  import opened GrammarLaws
  import opened Serializer

  datatype State = State(root: Node, stack: seq<Frame>)

  /** `macro_stack = [CodeBlock()]`. */
  function Initial(): State {
    State(List(Code, []), [Open([])])
  }

  /** The loop's invariant: the root is the CodeBlock, it is at the bottom of
      the stack while the stack lasts, and the stack is a chain over it. */
  predicate Valid(s: State) {
    && s.root.List? && s.root.kind == Code
    && (|s.stack| > 0 ==> s.stack[0] == Open([]))
    && Chained(s.root, s.stack)
  }

  lemma InitialValid()
    ensures Valid(Initial())
  {
    assert Get(List(Code, []), []) == Some(List(Code, []));
  }

  /** The node a frame stands for. */
  function NodeOf(s: State, f: Frame): Node
    requires f.Open? ==> Get(s.root, f.path).Some?
  {
    match f
    case Open(p) => Get(s.root, p).value
    case Leaf(m) => m
  }

  /** `macro_stack[-1]`. */
  function Top(s: State): Node
    requires Valid(s) && |s.stack| > 0
  {
    NodeOf(s, s.stack[|s.stack| - 1])
  }

  predicate TopDone(s: State)
    requires Valid(s) && |s.stack| > 0
  {
    IsDone(Top(s))
  }

  /** Leaves are done, so a top node that still wants input is an open block. */
  lemma WaitingTopIsOpen(s: State)
    requires Valid(s) && |s.stack| > 0 && !TopDone(s)
    ensures s.stack[|s.stack| - 1].Open? && IsBlock(Top(s))
  {
  }

  /** `macro_stack.pop()`: the tree is untouched. */
  function Pop(s: State): (r: State)
    requires Valid(s) && |s.stack| > 0
    ensures Valid(r) && r.root == s.root && r.stack == s.stack[..|s.stack| - 1]
  {
    ChainedPop(s.root, s.stack);
    State(s.root, s.stack[..|s.stack| - 1])
  }

  /** `macro.add_line(line)` on the top node and `macro_stack.extend(...)`:
      the top node is replaced by its updated self, every other node of the
      tree stays as it was, and the new frames go on top of the old stack. */
  function Feed(s: State, line: string): (r: Result<State>)
    requires Valid(s) && |s.stack| > 0 && !TopDone(s) && IsLine(line)
    ensures r.Ok? ==> Valid(r.value)
    ensures r.Ok? ==> |r.value.stack| > |s.stack| && r.value.stack[..|s.stack|] == s.stack
    ensures r.Ok? ==>
      var p := s.stack[|s.stack| - 1].path;
      forall q :: !(p <= q) && !(q <= p) ==> Get(r.value.root, q) == Get(s.root, q)
    ensures Tokenize(line).dashed && !Top(s).Orb? ==> r == Fail(DashNotAllowed)
    ensures r.Ok? <==> AddLine(Top(s), line).Ok?
    ensures r.Ok? ==> Get(r.value.root, s.stack[|s.stack| - 1].path) == Some(AddLine(Top(s), line).value.node)
    ensures r.Ok? ==> r.value.root == Set(s.root, s.stack[|s.stack| - 1].path, AddLine(Top(s), line).value.node)
    ensures r.Ok? ==> r.value.stack == s.stack + Shift(s.stack[|s.stack| - 1].path, AddLine(Top(s), line).value.frames)
  {
    var p := s.stack[|s.stack| - 1].path;
    var n := Get(s.root, p).value;
    var a :- AddLine(n, line);
    AddLineFrames(n, line);
    ChainedPush(s.root, s.stack, p, a.node, a.frames);
    var root' := Set(s.root, p, a.node);
    GetSet(s.root, p, a.node);
    assert root'.List? && root'.kind == Code by {
      if p != [] {
        SetKeepsShape(s.root, p, a.node);
      }
    }
    assert forall q :: !(p <= q) && !(q <= p) ==> Get(root', q) == Get(s.root, q) by {
      forall q | !(p <= q) && !(q <= p)
        ensures Get(root', q) == Get(s.root, q)
      {
        SetElsewhere(s.root, p, q, a.node);
      }
    }
    var stack' := s.stack + Shift(p, a.frames);
    assert stack'[..|s.stack|] == s.stack;
    Ok(State(root', stack'))
  }

  /** How a run of the loop over some input lines ends: the stack emptied
      (the root is what gets dumped; later lines are never read), the input ran
      out at a prompt, or a line raised. */
  datatype Outcome = Finished(root: Node, unread: seq<string>) | Waiting(state: State) | Crashed(error: Error)

  /** The `while True` loop. */
  function Run(s: State, lines: seq<string>): (r: Outcome)
    requires Valid(s)
    requires forall i :: 0 <= i < |lines| ==> IsLine(lines[i])
    ensures r.Finished? ==> r.root.List? && r.root.kind == Code
    ensures r.Waiting? ==> Valid(r.state) && |r.state.stack| > 0 && !TopDone(r.state)
    decreases |lines|, |s.stack|
  {
    if |s.stack| == 0 then Finished(s.root, lines)
    else if TopDone(s) then Run(Pop(s), lines)
    else if lines == [] then Waiting(s)
    else if lines[0] == "" then Run(Pop(s), lines[1..])
    else match Feed(s, lines[0])
      case Fail(e) => Crashed(e)
      case Ok(s') => Run(s', lines[1..])
  }

  function Blanks(m: nat): (r: seq<string>)
    ensures |r| == m && forall i :: 0 <= i < m ==> r[i] == ""
  {
    if m == 0 then [] else [""] + Blanks(m - 1)
  }

  /** As many empty lines as there are open nodes end the session, leaving the
      tree as it was. */
  lemma {:induction false} Unwind(s: State, m: nat)
    requires Valid(s) && m >= |s.stack|
    ensures Run(s, Blanks(m)).Finished? && Run(s, Blanks(m)).root == s.root
    decreases m, |s.stack|
  {
    if |s.stack| > 0 {
      if TopDone(s) {
        Unwind(Pop(s), m);
      } else {
        assert Blanks(m)[1..] == Blanks(m - 1);
        Unwind(Pop(s), m - 1);
      }
    }
  }

  /** Input can be consumed in pieces: running over `a + b` is running over
      `a` and then, if the loop is still waiting, over `b`. */
  lemma {:induction false} RunAppend(s: State, a: seq<string>, b: seq<string>)
    requires Valid(s)
    requires forall i :: 0 <= i < |a| ==> IsLine(a[i])
    requires forall i :: 0 <= i < |b| ==> IsLine(b[i])
    ensures forall i :: 0 <= i < |a + b| ==> IsLine((a + b)[i])
    ensures Run(s, a + b) == match Run(s, a)
      case Waiting(s') => Run(s', b)
      case Finished(root, unread) => Finished(root, unread + b)
      case Crashed(e) => Crashed(e)
    decreases |a|, |s.stack|
  {
    assert forall i :: 0 <= i < |a + b| ==> IsLine((a + b)[i]) by {
      forall i | 0 <= i < |a + b| ensures IsLine((a + b)[i]) {
        if i < |a| { assert (a + b)[i] == a[i]; } else { assert (a + b)[i] == b[i - |a|]; }
      }
    }
    if |s.stack| == 0 {
    } else if TopDone(s) {
      RunAppend(Pop(s), a, b);
    } else if a == [] {
      assert a + b == b;
    } else {
      assert (a + b)[0] == a[0] && (a + b)[1..] == a[1..] + b;
      if a[0] == "" {
        RunAppend(Pop(s), a[1..], b);
      } else if Feed(s, a[0]).Ok? {
        RunAppend(Feed(s, a[0]).value, a[1..], b);
      }
    }
  }

  /** What the program prints once the loop ends: the serialized root. */
  function Session(lines: seq<string>): (r: Option<Result<Doc>>)
    requires forall i :: 0 <= i < |lines| ==> IsLine(lines[i])
    ensures r.Some? <==> Run(Initial(), lines).Finished?
    ensures r.Some? ==> r.value == Serialize(Run(Initial(), lines).root)
  {
    InitialValid();
    match Run(Initial(), lines)
    case Finished(root, _) => Some(Serialize(root))
    case _ => None
  }

  // ---------------------------------------------------------------------
  // The prompt

  /** `sum(m.indent for m in macro_stack)`. */
  function IndentSum(s: State, k: nat): (r: int)
    requires k <= |s.stack|
    requires forall i :: 0 <= i < k && s.stack[i].Open? ==> Get(s.root, s.stack[i].path).Some?
    ensures r >= 0
  {
    if k == 0 then 0
    else IndentSum(s, k - 1) + Indent(NodeOf(s, s.stack[k - 1]))
  }

  /** `indents`: the summed indent less the root CodeBlock's own four. */
  function PromptIndent(s: State): (r: nat)
    requires Valid(s) && |s.stack| > 0
    ensures r + 4 == IndentSum(s, |s.stack|)
    ensures |s.stack| == 1 ==> r == 0
  {
    assert NodeOf(s, s.stack[0]) == s.root by {
      assert Get(s.root, []) == Some(s.root);
    }
    IndentSumAtLeastRoot(s, |s.stack|);
    IndentSum(s, |s.stack|) - 4
  }

  lemma {:induction false} IndentSumAtLeastRoot(s: State, k: nat)
    requires Valid(s) && 0 < k <= |s.stack| && NodeOf(s, s.stack[0]) == s.root
    ensures IndentSum(s, k) >= 4
  {
    if k > 1 {
      IndentSumAtLeastRoot(s, k - 1);
    }
  }

  /** `suffix`: a dash for a ListBlock or a list-mode OrbObject on top. */
  function Suffix(s: State): (r: string)
    requires Valid(s) && |s.stack| > 0
    ensures r == "- " <==> Top(s).List? || (Top(s).Orb? && Top(s).mode.Listed?)
    ensures r == "- " || r == "  "
    ensures r == "- " <==> Indent(Top(s)) == 4
  {
    var m := Top(s);
    if m.List? || (m.Orb? && m.mode.Listed?) then "- " else "  "
  }

  const Banner: string := "(murano) "

  function Spaces(k: nat): (r: string)
    ensures |r| == k && forall i :: 0 <= i < k ==> r[i] == ' '
  {
    if k == 0 then "" else " " + Spaces(k - 1)
  }

  /** The prompt: the banner at the outermost level (spaces of the same width
      deeper in), the indentation, the suffix. */
  function Prompt(s: State): (r: string)
    requires Valid(s) && |s.stack| > 0
    ensures |r| == |Banner| + PromptIndent(s) + 2
    ensures r[..|Banner|] == (if |s.stack| == 1 then Banner else Spaces(|Banner|))
    ensures forall i :: |Banner| <= i < |Banner| + PromptIndent(s) ==> r[i] == ' '
    ensures r[|Banner| + PromptIndent(s)..] == Suffix(s)
  {
    var prefix := if |s.stack| == 1 then Banner else Spaces(|Banner|);
    var r := prefix + Spaces(PromptIndent(s)) + Suffix(s);
    assert r[..|Banner|] == prefix;
    assert forall i :: |Banner| <= i < |Banner| + PromptIndent(s) ==> r[i] == Spaces(PromptIndent(s))[i - |Banner|];
    assert r[|Banner| + PromptIndent(s)..] == Suffix(s);
    r
  }

  /** At the first prompt the indentation is empty: the banner and a dash. */
  lemma FirstPrompt()
    ensures Valid(Initial()) && Prompt(Initial()) == Banner + "- "
  {
    InitialValid();
    var s := Initial();
    assert NodeOf(s, s.stack[0]) == s.root by {
      assert Get(s.root, []) == Some(s.root);
    }
    assert IndentSum(s, 1) == 4;
    assert Prompt(s) == Banner + "" + "- ";
  }

  // ---------------------------------------------------------------------
  // Completion

  /** `x` is the completion `k + ": "` of a keyword `k` in `kwords` that starts with `expr`. */
  predicate Offers(kwords: seq<string>, expr: string, x: string) {
    exists k :: k in kwords && expr <= k && x == k + ": "
  }

  /** Listed once each, the first keyword's completion is not among those
      the later keywords offer. */
  lemma FreshHead(kwords: seq<string>, expr: string, rest: seq<string>)
    requires kwords != [] && Unique(kwords)
    requires forall i :: 0 <= i < |rest| ==> Offers(kwords[1..], expr, rest[i])
    ensures Unique(kwords[1..]) && kwords[0] + ": " !in rest
  {
    var h := kwords[0];
    forall i | 0 <= i < |rest|
      ensures rest[i] != h + ": "
    {
      var k :| k in kwords[1..] && expr <= k && rest[i] == k + ": ";
      var j :| 0 <= j < |kwords[1..]| && kwords[1..][j] == k;
      assert kwords[j + 1] == k;
      if |k| == |h| {
        assert rest[i][..|k|] == k;
        assert (h + ": ")[..|k|] == h;
      }
    }
  }

  /** `[k + ": " for k in kwords if k.startswith(expr)]`, over the keywords in
      the order the table enumerates them. */
  function Matching(kwords: seq<string>, expr: string): (r: seq<string>)
    ensures |r| <= |kwords|
    ensures forall i :: 0 <= i < |r| ==> Offers(kwords, expr, r[i])
    ensures forall k :: k in kwords && expr <= k ==> k + ": " in r
    ensures Unique(kwords) ==> Unique(r)
  {
    if kwords == [] then []
    else
      var rest := Matching(kwords[1..], expr);
      assert Unique(kwords) ==> Unique(kwords[1..]) && kwords[0] + ": " !in rest by {
        if Unique(kwords) {
          FreshHead(kwords, expr, rest);
        }
      }
      assert forall k :: k in kwords ==> k == kwords[0] || k in kwords[1..];
      assert forall x :: Offers(kwords[1..], expr, x) ==> Offers(kwords, expr, x) by {
        forall x | Offers(kwords[1..], expr, x) ensures Offers(kwords, expr, x) {
          var k :| k in kwords[1..] && expr <= k && x == k + ": ";
          assert k in kwords;
        }
      }
      if expr <= kwords[0] then
        assert Offers(kwords, expr, kwords[0] + ": ") by { assert kwords[0] in kwords; }
        [kwords[0] + ": "] + rest
      else rest
  }

  /** The keywords are listed once each. */
  predicate Unique(xs: seq<string>) {
    forall i, j :: 0 <= i < j < |xs| ==> xs[i] != xs[j]
  }

  /** The comprehension keeps `kwords` order: one more keyword at the end adds
      its completion at the end, when it matches. */
  lemma {:induction false} MatchingSnoc(kwords: seq<string>, k: string, expr: string)
    ensures Matching(kwords + [k], expr) == Matching(kwords, expr) + (if expr <= k then [k + ": "] else [])
    decreases |kwords|
  {
    if kwords == [] {
      assert ([] + [k])[1..] == [];
    } else {
      assert (kwords + [k])[0] == kwords[0];
      assert (kwords + [k])[1..] == kwords[1..] + [k];
      MatchingSnoc(kwords[1..], k, expr);
    }
  }

  /** The matching keywords of a list are its matching head, if any, and the
      matching keywords of its tail, which cannot include the head again. */
  lemma MatchingSetStep(kwords: seq<string>, expr: string)
    requires kwords != [] && Unique(kwords)
    ensures |set k | k in kwords && expr <= k|
      == (if expr <= kwords[0] then 1 else 0) + |set k | k in kwords[1..] && expr <= k|
  {
    var h := kwords[0];
    var t := kwords[1..];
    var all := set k | k in kwords && expr <= k;
    var later := set k | k in t && expr <= k;
    forall j | 0 <= j < |t|
      ensures t[j] != h
    {
      assert t[j] == kwords[j + 1];
    }
    assert h !in later;
    assert forall k :: k in kwords <==> k == h || k in t;
    if expr <= h {
      assert all == later + {h};
    } else {
      assert all == later;
    }
  }

  /** Listed once each, the keywords give one completion per matching keyword. */
  lemma {:induction false} MatchingCount(kwords: seq<string>, expr: string)
    requires Unique(kwords)
    ensures |Matching(kwords, expr)| == |set k | k in kwords && expr <= k|
    decreases |kwords|
  {
    if kwords != [] {
      var t := kwords[1..];
      assert Unique(t);
      MatchingCount(t, expr);
      MatchingSetStep(kwords, expr);
      var h := kwords[0];
      assert |Matching(kwords, expr)| == (if expr <= h then 1 else 0) + |Matching(t, expr)|;
    }
  }

  /** `completer(expr, index)`: the index-th matching keyword of the top node,
      or None past the end. `order` is the table's iteration order, which a
      dict leaves to the implementation. */
  function Complete(s: State, order: seq<string>, expr: string, index: nat): (r: Option<string>)
    requires Valid(s) && |s.stack| > 0
    requires forall k :: k in order <==> k in Keywords(Top(s))
    requires forall i, j :: 0 <= i < j < |order| ==> order[i] != order[j]
    ensures r.Some? <==> index < |Matching(order, expr)|
    ensures r.Some? ==> r.value == Matching(order, expr)[index]
    ensures r.Some? ==> exists k :: k in Keywords(Top(s)) && expr <= k && r.value == k + ": "
    ensures |Matching(order, expr)| == |set k | k in Keywords(Top(s)) && expr <= k|
    ensures Unique(Matching(order, expr))
  {
    MatchingCount(order, expr);
    assert (set k | k in order && expr <= k) == (set k | k in Keywords(Top(s)) && expr <= k);
    var m := Matching(order, expr);
    if index < |m| then Some(m[index]) else None
  }

  /** Every keyword the top node still accepts is offered for its prefixes,
      and nothing else is. */
  lemma CompletionExact(s: State, order: seq<string>, expr: string, k: string)
    requires Valid(s) && |s.stack| > 0
    requires forall k :: k in order <==> k in Keywords(Top(s))
    requires forall i, j :: 0 <= i < j < |order| ==> order[i] != order[j]
    ensures (exists i: nat :: Complete(s, order, expr, i) == Some(k + ": ")) <==> k in Keywords(Top(s)) && expr <= k
  {
    var m := Matching(order, expr);
    if k in Keywords(Top(s)) && expr <= k {
      var i :| 0 <= i < |m| && m[i] == k + ": ";
      assert Complete(s, order, expr, i) == Some(k + ": ");
    }
    if exists i: nat :: Complete(s, order, expr, i) == Some(k + ": ") {
      var i: nat :| Complete(s, order, expr, i) == Some(k + ": ");
      var k' :| k' in order && expr <= k' && m[i] == k' + ": ";
      assert k' + ": " == k + ": ";
      assert k' == (k' + ": ")[..|k'|];
      assert k == (k + ": ")[..|k|];
    }
  }
}

=== FILE: scenarios.dfy ===
/** Worked examples: how particular lines tokenize, and what a short macro
    does to the tree, line by line, down to its serialized form. */
module Scenarios {
  import opened Wrappers
  import opened Tokenizer
  import opened Macros
  import opened Ordered
  import opened Paths
  import opened Grammar
  import opened GrammarLaws
  import opened Serializer
  import opened Repl

  // ---------------------------------------------------------------------
  // Tokenizing

  /** A key and a value. */
  lemma KeyValueLine()
    ensures Tokenize("key: value") == Token(Some("key"), Some("value"), false)
  {
    NoColonNoKey("key");
    PlainStartNoMarker("key");
    ReadsBack("key: value", Token(Some("key"), Some("value"), false));
  }

  /** A dashed scalar. */
  lemma DashedScalarLine()
    ensures Tokenize("- item") == Token(None, Some("item"), true)
  {
    NoColonNoKey("item");
    ReadsBack("- item", Token(None, Some("item"), true));
  }

  /** A colon glued to the next character does not make a key: a clock time. */
  lemma ClockLine()
    ensures Tokenize("12:30") == Token(None, Some("12:30"), false)
  {
    GluedColonsNoKey("12:30");
    PlainStartNoMarker("12:30");
    ReadsBack("12:30", Token(None, Some("12:30"), false));
  }

  /** Nor in a URL. */
  lemma UrlLine()
    ensures Tokenize("http://x") == Token(None, Some("http://x"), false)
  {
    GluedColonsNoKey("http://x");
    PlainStartNoMarker("http://x");
    ReadsBack("http://x", Token(None, Some("http://x"), false));
  }

  lemma IfLine()
    ensures IsLine("If: x > 0") && Tokenize("If: x > 0") == Token(Some("If"), Some("x > 0"), false)
  {
    NoColonNoKey("If");
    PlainStartNoMarker("If");
    ReadsBack("If: x > 0", Token(Some("If"), Some("x > 0"), false));
  }

  lemma ThenLine()
    ensures IsLine("Then:") && Tokenize("Then:") == Token(Some("Then"), None, false)
  {
    NoColonNoKey("Then");
    PlainStartNoMarker("Then");
    ReadsBack("Then:", Token(Some("Then"), None, false));
  }

  lemma PrintLine(dashed: bool)
    ensures var line := if dashed then "- print x" else "print x";
      IsLine(line) && Tokenize(line) == Token(None, Some("print x"), dashed)
  {
    NoColonNoKey("print x");
    PlainStartNoMarker("print x");
    ReadsBack(if dashed then "- print x" else "print x", Token(None, Some("print x"), dashed));
  }

  // ---------------------------------------------------------------------
  // A conditional, line by line

  /** An If construct that has seen only its head line. */
  function Conditional(cond: string): Node {
    Named(If, FollowUps(If), [("If", Single(cond))])
  }

  /** The same after `Then:`, with the branch's lines so far. */
  function ThenBranch(cond: string, body: seq<Node>): Node {
    Named(If, FollowUps(If) - {"Then"}, [("If", Single(cond)), ("Then", List(Code, body))])
  }

  /** An `If: <cond>` line appended to a CodeBlock opens an If construct
      holding its condition; the frames pushed are the construct and the
      (already done) condition. */
  lemma OpenIf(items: seq<Node>, line: string, cond: string)
    requires IsLine(line) && Tokenize(line) == Token(Some("If"), Some(cond), false)
    ensures AddLine(List(Code, items), line)
      == Ok(Added(List(Code, items + [Conditional(cond)]), [Open([Item(|items|)]), Leaf(Single(cond))]))
  {
    assert "If" in ListTable(Code) && ListTable(Code)["If"] == If;
    ListKeywordLine(List(Code, items), line);
    var h := HeadChild(If, Some(cond));
    assert h == Single(cond) && Keyword(If) == "If";
    assert ShiftFrame([Item(|items|)], FrameFor(h, [Entry(0)])) == Leaf(Single(cond));
  }

  /** `Then:` uses the keyword and opens the branch's CodeBlock. */
  lemma OpenThen(cond: string, line: string)
    requires IsLine(line) && Tokenize(line) == Token(Some("Then"), None, false)
    ensures AddLine(Conditional(cond), line) == Ok(Added(ThenBranch(cond, []), [Open([Entry(1)])]))
  {
    var n := Conditional(cond);
    NamedProduce(n, line);
    assert "Then" in n.table && n.table["Then"] == CodePart;
    var made := Made(List(Code, []), []);
    assert Produce(n, line) == Ok(made);
    assert AddLine(n, line) == Attach(Consume(n, "Then"), Some("Then"), false, made);
    assert KeySet(n.entries) == {"If"};
    AttachEntry(If, FollowUps(If) - {"Then"}, n.entries, "Then", false, made);
    assert Consume(n, "Then") == Named(If, FollowUps(If) - {"Then"}, n.entries);
    assert n.entries + [("Then", List(Code, []))] == ThenBranch(cond, []).entries;
    assert [FrameFor(List(Code, []), [Entry(1)])] + Shift([Entry(1)], []) == [Open([Entry(1)])];
  }

  /** A keyless, undashed line in a CodeBlock is appended as a scalar. */
  lemma PlainStatement(items: seq<Node>, line: string)
    requires IsLine(line) && Tokenize(line) == Token(None, Some(line), false)
    ensures AddLine(List(Code, items), line) == Ok(Added(List(Code, items + [Single(line)]), [Leaf(Single(line))]))
  {
    var n := List(Code, items);
    var made := Made(Single(line), []);
    assert Statement(line) == Single(line);
    assert Lookup(n, None) == None;
    assert Produce(n, line) == Ok(made);
    assert AddLine(n, line) == Attach(n, None, false, made);
    AttachAppend(Code, items, None, false, made);
    assert [FrameFor(Single(line), [Item(|items|)])] + Shift([Item(|items|)], []) == [Leaf(Single(line))];
  }

  /** The branch body written with a dash, as a YAML list would be, is refused:
      a CodeBlock does not allow dashes. */
  lemma DashedStatementRefused()
    ensures AddLine(List(Code, []), "- print x") == Fail(DashNotAllowed)
  {
    PrintLine(true);
  }

  /** The macro `If: x > 0` / `Then:` / `print x`, node by node: the head line. */
  lemma IfStep()
    ensures AddLine(List(Code, []), "If: x > 0")
      == Ok(Added(List(Code, [Conditional("x > 0")]), [Open([Item(0)]), Leaf(Single("x > 0"))]))
  {
    IfLine();
    OpenIf([], "If: x > 0", "x > 0");
    assert [] + [Conditional("x > 0")] == [Conditional("x > 0")];
  }

  /** The `Then:` line, fed to the construct the head line opened. */
  lemma ThenStep()
    ensures AddLine(Conditional("x > 0"), "Then:") == Ok(Added(ThenBranch("x > 0", []), [Open([Entry(1)])]))
  {
    ThenLine();
    OpenThen("x > 0", "Then:");
  }

  /** The branch's statement, fed to the branch's CodeBlock. */
  lemma PrintStep()
    ensures AddLine(List(Code, []), "print x") == Ok(Added(List(Code, [Single("print x")]), [Leaf(Single("print x"))]))
  {
    PrintLine(false);
    assert Tokenize("print x") == Token(None, Some("print x"), false);
    PlainStatement([], "print x");
    assert [] + [Single("print x")] == [Single("print x")];
  }

  /** The finished tree serializes to one mapping with the condition and the branch. */
  lemma ConditionalDocument(cond: string, stmt: string)
    ensures Serialize(List(Code, [ThenBranch(cond, [Single(stmt)])]))
      == Ok(Items([Mapping([("If", Scalar(cond)), ("Then", Items([Scalar(stmt)]))])]))
  {
    var body := [Single(stmt)];
    SingleItem(Single(stmt));
    var b := ThenBranch(cond, body);
    var es := [("If", Scalar(cond)), ("Then", Items([Scalar(stmt)]))];
    assert Serialize(b.entries[0].1) == Ok(Scalar(cond));
    assert Serialize(b.entries[1].1) == Ok(Items([Scalar(stmt)]));
    var r := SerializeEntries(b.entries, b);
    assert r.Ok? && |r.value| == 2;
    assert r.value[0] == es[0] && r.value[1] == es[1];
    assert r.value == es;
    assert Serialize(b) == Ok(Mapping(es));
    SingleItem(b);
  }

  /** A one-line list serializes to the one-element list of the line's document. */
  lemma SingleItem(x: Node)
    requires Serialize(x).Ok?
    ensures Serialize(List(Code, [x])) == Ok(Items([Serialize(x).value]))
  {
    var r := SerializeItems([x]);
    assert r.Ok? && |r.value| == 1 && r.value[0] == Serialize(x).value;
    assert r.value == [Serialize(x).value];
  }

  // ---------------------------------------------------------------------
  // The conditional through the interactive loop

  function IfTree(cond: string): Node {
    List(Code, [Conditional(cond)])
  }

  function ThenTree(cond: string): Node {
    List(Code, [ThenBranch(cond, [])])
  }

  function DoneTree(cond: string, stmt: string): Node {
    List(Code, [ThenBranch(cond, [Single(stmt)])])
  }

  /** After the head line: the construct and its condition are pushed. */
  function AfterIf(cond: string): State {
    State(IfTree(cond), [Open([]), Open([Item(0)]), Leaf(Single(cond))])
  }

  /** The condition, being done, is popped. */
  function AtConstruct(cond: string): State {
    State(IfTree(cond), [Open([]), Open([Item(0)])])
  }

  /** After `Then:`: the branch's CodeBlock is on top. */
  function AtBranch(cond: string): State {
    State(ThenTree(cond), [Open([]), Open([Item(0)]), Open([Item(0), Entry(1)])])
  }

  /** After the statement: it sits on top of the branch. */
  function AfterStatement(cond: string, stmt: string): State {
    State(DoneTree(cond, stmt), AtBranch(cond).stack + [Leaf(Single(stmt))])
  }

  /** One round of the loop on a block: the tree gets the block's updated
      self at the block's path, and the block's frames are pushed. */
  lemma FeedGives(s: State, line: string, a: Added, s': State)
    requires Valid(s) && |s.stack| > 0 && !TopDone(s) && IsLine(line)
    requires AddLine(Top(s), line) == Ok(a)
    requires var p := s.stack[|s.stack| - 1].path;
      s' == State(Set(s.root, p, a.node), s.stack + Shift(p, a.frames))
    ensures Feed(s, line) == Ok(s') && Valid(s')
  {
  }

  lemma RunFeeds(s: State, lines: seq<string>, s': State)
    requires Valid(s) && |s.stack| > 0 && !TopDone(s)
    requires forall i :: 0 <= i < |lines| ==> IsLine(lines[i])
    requires lines != [] && lines[0] != "" && Feed(s, lines[0]) == Ok(s')
    ensures Run(s, lines) == Run(s', lines[1..])
  {
  }

  lemma RunPops(s: State, lines: seq<string>)
    requires Valid(s) && |s.stack| > 0 && TopDone(s)
    requires forall i :: 0 <= i < |lines| ==> IsLine(lines[i])
    ensures Run(s, lines) == Run(Pop(s), lines)
  {
  }

  /** The first round: the root CodeBlock takes the head line. */
  lemma IfRound(line: string, cond: string)
    requires IsLine(line) && Tokenize(line) == Token(Some("If"), Some(cond), false)
    ensures Valid(Initial()) && |Initial().stack| > 0 && !TopDone(Initial())
    ensures Feed(Initial(), line) == Ok(AfterIf(cond)) && Valid(AfterIf(cond))
  {
    var fs := [Open([Item(0)]), Leaf(Single(cond))];
    assert Shift([], fs) == fs by {
      assert [] + [Item(0)] == [Item(0)];
    }
    var s := Initial();
    assert s.stack + fs == AfterIf(cond).stack;
    InitialValid();
    assert Get(s.root, []) == Some(s.root);
    assert Top(s) == List(Code, []);
    OpenIf([], line, cond);
    assert [] + [Conditional(cond)] == [Conditional(cond)];
    assert AddLine(Top(s), line) == Ok(Added(IfTree(cond), fs));
    FeedGives(s, line, Added(IfTree(cond), fs), AfterIf(cond));
  }

  /** The condition is a leaf, so it is popped before the next prompt. */
  lemma ConditionPopped(cond: string)
    requires Valid(AfterIf(cond))
    ensures TopDone(AfterIf(cond)) && Pop(AfterIf(cond)) == AtConstruct(cond) && Valid(AtConstruct(cond))
  {
    assert AfterIf(cond).stack[..2] == AtConstruct(cond).stack;
  }

  /** The second round: the construct takes `Then:`. */
  lemma ThenRound(line: string, cond: string)
    requires IsLine(line) && Tokenize(line) == Token(Some("Then"), None, false)
    requires Valid(AtConstruct(cond))
    ensures !TopDone(AtConstruct(cond))
    ensures Feed(AtConstruct(cond), line) == Ok(AtBranch(cond)) && Valid(AtBranch(cond))
  {
    OpenThen(cond, line);
    var c := Conditional(cond);
    assert Get(IfTree(cond), [Item(0)]) == Some(c) by {
      assert [Item(0)][1..] == [];
    }
    assert FollowUps(If) != map[];
    var b := ThenBranch(cond, []);
    assert Set(IfTree(cond), [Item(0)], b) == ThenTree(cond) by {
      assert [Item(0)][1..] == [];
      assert [c][0 := b] == [b];
    }
    assert [Item(0)] + [Entry(1)] == [Item(0), Entry(1)];
    assert Shift([Item(0)], [Open([Entry(1)])]) == [Open([Item(0), Entry(1)])];
    assert AtConstruct(cond).stack + [Open([Item(0), Entry(1)])] == AtBranch(cond).stack;
    assert Top(AtConstruct(cond)) == c;
    assert AddLine(Top(AtConstruct(cond)), line) == Ok(Added(b, [Open([Entry(1)])]));
    FeedGives(AtConstruct(cond), line, Added(b, [Open([Entry(1)])]), AtBranch(cond));
  }

  /** The branch sits at `[Item(0), Entry(1)]` of the tree. */
  lemma BranchAt(cond: string, stmt: string)
    ensures Get(ThenTree(cond), [Item(0), Entry(1)]) == Some(List(Code, []))
    ensures Set(ThenTree(cond), [Item(0), Entry(1)], List(Code, [Single(stmt)])) == DoneTree(cond, stmt)
  {
    var p := [Item(0), Entry(1)];
    var b := ThenBranch(cond, []);
    assert p[1..] == [Entry(1)] && [Entry(1)][1..] == [];
    assert Get(b, [Entry(1)]) == Some(List(Code, []));
    var x := List(Code, [Single(stmt)]);
    var b' := ThenBranch(cond, [Single(stmt)]);
    assert Set(b, [Entry(1)], x) == b' by {
      assert b.entries[1 := ("Then", x)] == b'.entries;
    }
    assert [b][0 := b'] == DoneTree(cond, stmt).items;
  }

  /** The third round: the branch takes the statement. */
  lemma StatementRound(line: string, cond: string)
    requires IsLine(line) && Tokenize(line) == Token(None, Some(line), false)
    requires Valid(AtBranch(cond))
    ensures !TopDone(AtBranch(cond))
    ensures Feed(AtBranch(cond), line) == Ok(AfterStatement(cond, line)) && Valid(AfterStatement(cond, line))
  {
    var p := [Item(0), Entry(1)];
    var x := List(Code, [Single(line)]);
    BranchAt(cond, line);
    assert Shift(p, [Leaf(Single(line))]) == [Leaf(Single(line))];
    assert Top(AtBranch(cond)) == List(Code, []);
    PlainStatement([], line);
    assert [] + [Single(line)] == [Single(line)];
    assert AddLine(Top(AtBranch(cond)), line) == Ok(Added(x, [Leaf(Single(line))]));
    FeedGives(AtBranch(cond), line, Added(x, [Leaf(Single(line))]), AfterStatement(cond, line));
  }

  /** The statement is popped, being done, and the three empty lines close
      the branch, the construct and the root. */
  lemma Closing(cond: string, stmt: string)
    requires Valid(AfterStatement(cond, stmt))
    ensures Run(AfterStatement(cond, stmt), ["", "", ""]).Finished?
    ensures Run(AfterStatement(cond, stmt), ["", "", ""]).root == DoneTree(cond, stmt)
  {
    var s := AfterStatement(cond, stmt);
    assert TopDone(s);
    assert Blanks(3) == ["", "", ""];
    RunPops(s, Blanks(3));
    Unwind(Pop(s), 3);
  }

  predicate AllLines(lines: seq<string>) {
    forall i :: 0 <= i < |lines| ==> IsLine(lines[i])
  }

  lemma ConsLines(line: string, rest: seq<string>)
    requires IsLine(line) && AllLines(rest)
    ensures AllLines([line] + rest) && ([line] + rest)[1..] == rest && ([line] + rest)[0] == line
  {
  }

  /** The loop, on the head line: it is fed to the root, and the condition
      it pushed is popped. */
  lemma RunHead(head: string, cond: string, rest: seq<string>)
    requires IsLine(head) && Tokenize(head) == Token(Some("If"), Some(cond), false)
    requires AllLines(rest)
    ensures AllLines([head] + rest) && Valid(AtConstruct(cond))
    ensures Run(Initial(), [head] + rest) == Run(AtConstruct(cond), rest)
  {
    IfRound(head, cond);
    ConsLines(head, rest);
    assert head != "" by {
      assert Tokenize(head).key.Some?;
    }
    RunFeeds(Initial(), [head] + rest, AfterIf(cond));
    ConditionPopped(cond);
    RunPops(AfterIf(cond), rest);
  }

  /** The loop, on `Then:`: it is fed to the construct. */
  lemma RunThen(next: string, cond: string, rest: seq<string>)
    requires IsLine(next) && Tokenize(next) == Token(Some("Then"), None, false)
    requires AllLines(rest) && Valid(AtConstruct(cond))
    ensures AllLines([next] + rest) && Valid(AtBranch(cond))
    ensures Run(AtConstruct(cond), [next] + rest) == Run(AtBranch(cond), rest)
  {
    ThenRound(next, cond);
    ConsLines(next, rest);
    assert next != "" by {
      assert Tokenize(next).key.Some?;
    }
    RunFeeds(AtConstruct(cond), [next] + rest, AtBranch(cond));
  }

  /** The loop, on the statement: it is fed to the branch. */
  lemma RunStatement(stmt: string, cond: string, rest: seq<string>)
    requires IsLine(stmt) && stmt != "" && Tokenize(stmt) == Token(None, Some(stmt), false)
    requires AllLines(rest) && Valid(AtBranch(cond))
    ensures AllLines([stmt] + rest) && Valid(AfterStatement(cond, stmt))
    ensures Run(AtBranch(cond), [stmt] + rest) == Run(AfterStatement(cond, stmt), rest)
  {
    StatementRound(stmt, cond);
    ConsLines(stmt, rest);
    RunFeeds(AtBranch(cond), [stmt] + rest, AfterStatement(cond, stmt));
  }

  /** From the branch on: the statement and the three empty lines. */
  lemma FromBranch(stmt: string, cond: string)
    requires IsLine(stmt) && stmt != "" && Tokenize(stmt) == Token(None, Some(stmt), false)
    requires Valid(AtBranch(cond))
    ensures AllLines([stmt, "", "", ""])
    ensures Run(AtBranch(cond), [stmt, "", "", ""]).Finished?
    ensures Run(AtBranch(cond), [stmt, "", "", ""]).root == DoneTree(cond, stmt)
  {
    assert [stmt] + ["", "", ""] == [stmt, "", "", ""];
    assert AllLines(["", "", ""]);
    RunStatement(stmt, cond, ["", "", ""]);
    Closing(cond, stmt);
  }

  /** From the construct on: `Then:`, the statement and the empty lines. */
  lemma FromConstruct(next: string, stmt: string, cond: string)
    requires IsLine(next) && Tokenize(next) == Token(Some("Then"), None, false)
    requires IsLine(stmt) && stmt != "" && Tokenize(stmt) == Token(None, Some(stmt), false)
    requires Valid(AtConstruct(cond))
    ensures AllLines([next, stmt, "", "", ""])
    ensures Run(AtConstruct(cond), [next, stmt, "", "", ""]).Finished?
    ensures Run(AtConstruct(cond), [next, stmt, "", "", ""]).root == DoneTree(cond, stmt)
  {
    assert [next] + [stmt, "", "", ""] == [next, stmt, "", "", ""];
    ThenRound(next, cond);
    FromBranch(stmt, cond);
    RunThen(next, cond, [stmt, "", "", ""]);
  }

  /** The loop over a conditional's lines, a one-statement branch and three
      empty lines ends with the document of the tree they built. */
  lemma BranchSession(head: string, next: string, stmt: string, cond: string)
    requires IsLine(head) && Tokenize(head) == Token(Some("If"), Some(cond), false)
    requires IsLine(next) && Tokenize(next) == Token(Some("Then"), None, false)
    requires IsLine(stmt) && stmt != "" && Tokenize(stmt) == Token(None, Some(stmt), false)
    ensures AllLines([head, next, stmt, "", "", ""])
    ensures Session([head, next, stmt, "", "", ""])
      == Some(Ok(Items([Mapping([("If", Scalar(cond)), ("Then", Items([Scalar(stmt)]))])])))
  {
    assert [head] + [next, stmt, "", "", ""] == [head, next, stmt, "", "", ""];
    IfRound(head, cond);
    ConditionPopped(cond);
    FromConstruct(next, stmt, cond);
    RunHead(head, cond, [next, stmt, "", "", ""]);
    ConditionalDocument(cond, stmt);
  }

  /** `If: x > 0`, `Then:`, `print x` and three empty lines. */
  lemma ConditionalSession()
    ensures Session(["If: x > 0", "Then:", "print x", "", "", ""])
      == Some(Ok(Items([Mapping([("If", Scalar("x > 0")), ("Then", Items([Scalar("print x")]))])])))
  {
    IfLine();
    ThenLine();
    PrintLine(false);
    BranchSession("If: x > 0", "Then:", "print x", "x > 0");
  }
}

=== FILE: serialize.dfy ===
/** The serialize methods of the node family: the plain document (scalars,
    lists, ordered mappings, None) that the interactive loop dumps as YAML.
    A dict-mode OrbObject stores `child.value` for a `key: text` line, which is
    a bare string without a serialize method; serializing it raises, and that
    is the one way serialization can fail. */
module Serializer {
  import opened Wrappers
  import opened Tokenizer
  import opened Macros
  import opened Ordered
  import opened Paths
  import opened Grammar
  import opened GrammarLaws

  /** The serialized form: a string, None, a list, or an ordered mapping. */
  datatype Doc = Scalar(text: string) | Null | Items(items: seq<Doc>) | Mapping(entries: seq<(string, Doc)>)

  function Serialize(n: Node): (r: Result<Doc>)
    ensures r.Fail? ==> r.error == NotSerializable
    ensures n.Single? ==> r == Ok(Scalar(n.expr))
    ensures n.Pair? && n.val.Text? ==> r == Ok(Mapping([(n.key, Scalar(n.val.text))]))
    ensures n.Pair? && n.val.Sub? ==>
      && (r.Ok? <==> Serialize(n.val.node).Ok?)
      && (r.Ok? ==> r.value == Mapping([(n.key, Serialize(n.val.node).value)]))
    ensures n.List? ==>
      && (r.Ok? <==> SerializeItems(n.items).Ok?)
      && (r.Ok? ==> r.value == Items(SerializeItems(n.items).value) && |r.value.items| == |n.items|)
    ensures n.Named? ==>
      && (r.Ok? <==> SerializeEntries(n.entries, n).Ok?)
      && (r.Ok? ==> r.value == Mapping(SerializeEntries(n.entries, n).value) && |r.value.entries| == |n.entries|)
    ensures n == Orb(Unset) ==> r == Ok(Null)
    ensures n.Orb? && n.mode.Listed? ==>
      && (r.Ok? <==> SerializeItems(n.mode.items).Ok?)
      && (r.Ok? ==> r.value == Items(SerializeItems(n.mode.items).value))
    ensures n.Orb? && n.mode.Keyed? ==>
      && (r.Ok? <==> SerializeFields(n.mode.fields, n).Ok?)
      && (r.Ok? ==> r.value == Mapping(SerializeFields(n.mode.fields, n).value))
    decreases n
  {
    match n
    case Single(e) => Ok(Scalar(e))
    case Pair(k, Text(s)) => Ok(Mapping([(k, Scalar(s))]))
    case Pair(k, Sub(m)) =>
      var d :- Serialize(m);
      Ok(Mapping([(k, d)]))
    case List(_, items) =>
      var ds :- SerializeItems(items);
      Ok(Items(ds))
    case Named(_, _, entries) =>
      var es :- SerializeEntries(entries, n);
      Ok(Mapping(es))
    case Orb(Unset) => Ok(Null)
    case Orb(Listed(items)) =>
      var ds :- SerializeItems(items);
      Ok(Items(ds))
    case Orb(Keyed(fields)) =>
      var es :- SerializeFields(fields, n);
      Ok(Mapping(es))
  }

  /** `[line.serialize() for line in self.lines]`. */
  function SerializeItems(items: seq<Node>): (r: Result<seq<Doc>>)
    ensures r.Fail? ==> r.error == NotSerializable
    ensures r.Ok? <==> forall i :: 0 <= i < |items| ==> Serialize(items[i]).Ok?
    ensures r.Ok? ==> |r.value| == |items| && forall i :: 0 <= i < |items| ==> r.value[i] == Serialize(items[i]).value
    decreases items
  {
    if items == [] then Ok([])
    else
      var d :- Serialize(items[0]);
      var ds :- SerializeItems(items[1..]);
      assert forall i :: 1 <= i < |items| ==> items[i] == items[1..][i - 1];
      Ok([d] + ds)
  }

  /** A NamedBlock's ordered blocks, each value serialized under its key. */
  function SerializeEntries(es: seq<(string, Node)>, ghost parent: Node): (r: Result<seq<(string, Doc)>>)
    requires forall i :: 0 <= i < |es| ==> es[i].1 < parent
    ensures r.Fail? ==> r.error == NotSerializable
    ensures r.Ok? <==> forall i :: 0 <= i < |es| ==> Serialize(es[i].1).Ok?
    ensures r.Ok? ==> |r.value| == |es| && forall i :: 0 <= i < |es| ==> r.value[i] == (es[i].0, Serialize(es[i].1).value)
    decreases parent, |es|
  {
    if es == [] then Ok([])
    else
      var d :- Serialize(es[0].1);
      var rest :- SerializeEntries(es[1..], parent);
      assert forall i :: 1 <= i < |es| ==> es[i] == es[1..][i - 1];
      Ok([(es[0].0, d)] + rest)
  }

  /** A dict-mode OrbObject's values: a nested OrbObject serializes, raw text
      (a bare string) does not. */
  function SerializeFields(fs: seq<(string, Value)>, ghost parent: Node): (r: Result<seq<(string, Doc)>>)
    requires forall i :: 0 <= i < |fs| && fs[i].1.Sub? ==> fs[i].1.node < parent
    ensures r.Fail? ==> r.error == NotSerializable
    ensures r.Ok? <==> forall i :: 0 <= i < |fs| ==> fs[i].1.Sub? && Serialize(fs[i].1.node).Ok?
    ensures r.Ok? ==> |r.value| == |fs| && forall i :: 0 <= i < |fs| ==> r.value[i] == (fs[i].0, Serialize(fs[i].1.node).value)
    decreases parent, |fs|
  {
    if fs == [] then Ok([])
    else if fs[0].1.Text? then Fail(NotSerializable)
    else
      var d :- Serialize(fs[0].1.node);
      var rest :- SerializeFields(fs[1..], parent);
      assert forall i :: 1 <= i < |fs| ==> fs[i] == fs[1..][i - 1];
      Ok([(fs[0].0, d)] + rest)
  }

  /** A dict-mode OrbObject holding raw text under some key. */
  predicate RawField(m: Node) {
    m.Orb? && m.mode.Keyed? && exists i :: 0 <= i < |m.mode.fields| && m.mode.fields[i].1.Text?
  }

  /** The node at path `p` is a dict-mode OrbObject holding raw text. */
  predicate RawAt(n: Node, p: Path) {
    Get(n, p).Some? && RawField(Get(n, p).value)
  }

  /** Serialization fails exactly when some node of the tree is a dict-mode
      OrbObject holding raw text. */
  lemma SerializeFailsIff(n: Node)
    ensures Serialize(n).Fail? <==> exists p :: RawAt(n, p)
  {
    if Serialize(n).Fail? {
      var p := FailWitness(n);
    }
    if exists p :: RawAt(n, p) {
      var p :| RawAt(n, p);
      RawBreaks(n, p);
    }
  }

  /** The path to a node that makes serialization fail. */
  lemma {:induction false} FailWitness(n: Node) returns (p: Path)
    requires Serialize(n).Fail?
    ensures RawAt(n, p)
    decreases n
  {
    match n
    case Pair(k, Sub(m)) =>
      var q := FailWitness(m);
      p := [Inner] + q;
      assert p[0] == Inner && p[1..] == q;
    case List(_, items) =>
      var i :| 0 <= i < |items| && Serialize(items[i]).Fail?;
      var q := FailWitness(items[i]);
      p := [Item(i)] + q;
      assert p[0] == Item(i) && p[1..] == q;
    case Named(_, _, entries) =>
      var i :| 0 <= i < |entries| && Serialize(entries[i].1).Fail?;
      var q := FailWitness(entries[i].1);
      p := [Entry(i)] + q;
      assert p[0] == Entry(i) && p[1..] == q;
    case Orb(Listed(items)) =>
      var i :| 0 <= i < |items| && Serialize(items[i]).Fail?;
      var q := FailWitness(items[i]);
      p := [Item(i)] + q;
      assert p[0] == Item(i) && p[1..] == q;
    case Orb(Keyed(fields)) =>
      if exists i :: 0 <= i < |fields| && fields[i].1.Text? {
        p := [];
      } else {
        var i :| 0 <= i < |fields| && Serialize(fields[i].1.node).Fail?;
        var q := FailWitness(fields[i].1.node);
        p := [Entry(i)] + q;
        assert p[0] == Entry(i) && p[1..] == q;
      }
  }

  /** A node that cannot be serialized spoils every node above it. */
  lemma {:induction false} RawBreaks(n: Node, p: Path)
    requires RawAt(n, p)
    ensures Serialize(n).Fail?
    decreases |p|
  {
    if p == [] {
      var fields := n.mode.fields;
      var i :| 0 <= i < |fields| && fields[i].1.Text?;
    } else {
      var c := Child(n, p[0]).value;
      assert Get(n, p) == Get(c, p[1..]);
      RawBreaks(c, p[1..]);
      match p[0]
      case Item(i) =>
      case Entry(i) =>
      case Inner =>
    }
  }

  /** Appending a line to a list serializes as appending its document. */
  lemma SerializeAppend(kind: ListKind, items: seq<Node>, x: Node)
    ensures Serialize(List(kind, items + [x])).Ok? <==> Serialize(List(kind, items)).Ok? && Serialize(x).Ok?
    ensures Serialize(List(kind, items + [x])).Ok? ==>
      Serialize(List(kind, items + [x])).value == Items(Serialize(List(kind, items)).value.items + [Serialize(x).value])
  {
    var all := items + [x];
    assert forall i :: 0 <= i < |items| ==> all[i] == items[i];
    assert all[|items|] == x;
    if Serialize(List(kind, all)).Ok? {
      var ds := Serialize(List(kind, items)).value.items;
      var d := Serialize(x).value;
      assert Serialize(List(kind, all)).value.items == ds + [d];
    }
  }

  /** The raw text a dict-mode OrbObject keeps for a `key: text` line makes
      the object, and so every tree holding it, fail to serialize. */
  lemma DictTextBreaks(n: Node, line: string)
    requires n.Orb? && n.mode.Keyed? && IsLine(line)
    requires var t := Tokenize(line); t.key.Some? && t.value.Some? && !t.dashed
    ensures AddLine(n, line).Ok? && Serialize(AddLine(n, line).value.node).Fail?
  {
    OrbDictLine(n, line);
    var m := AddLine(n, line).value.node;
    var i := Find(n.mode.fields, Tokenize(line).key.value);
    assert m.mode.fields[i].1.Text?;
    assert Get(m, []) == Some(m);
    RawBreaks(m, []);
  }
}

=== FILE: tokenizer.dfy ===
/** The line tokenizer `parse` of macroparser.py.

    The source matches each line against
        ^(ws* - ws+)? ( (key: .*? \w) ws* : (ws+ (value: .*))?  |  (s_value: .*) ) $
    and returns (key, value or s_value, dash matched). This module states that
    regular expression's leftmost, lazy-key semantics directly on character
    sequences. Lines never contain a newline (the line source strips it), which
    is what makes the scalar alternative always match. */
module Tokenizer {
  import opened Wrappers

  /** `\s` of a byte-string pattern. */
  predicate IsSpace(c: char) {
    c == ' ' || c == '\t' || c == '\n' || c == '\r' || c == '\U{B}' || c == '\U{C}'
  }

  /** `\w` of a byte-string pattern without the LOCALE or UNICODE flag. */
  predicate IsWord(c: char) {
    ('a' <= c <= 'z') || ('A' <= c <= 'Z') || ('0' <= c <= '9') || c == '_'
  }

  /** One line as the line source delivers it: no newline inside. */
  predicate IsLine(s: string) {
    forall i :: 0 <= i < |s| ==> s[i] != '\n'
  }

  /** The tokenized line: (key, value, dashed). */
  datatype Token = Token(key: Option<string>, value: Option<string>, dashed: bool)

  /** End of the longest run of whitespace starting at `i` (a greedy `\s*`). */
  function SkipSpaces(s: string, i: nat): (j: nat)
    requires i <= |s|
    ensures i <= j <= |s|
    ensures forall k :: i <= k < j ==> IsSpace(s[k])
    ensures j == |s| || !IsSpace(s[j])
    decreases |s| - i
  {
    if i < |s| && IsSpace(s[i]) then SkipSpaces(s, i + 1) else i
  }

  /** `m` is a whole dash marker `ws* - ws+`. */
  predicate IsMarker(m: string) {
    exists j :: 0 <= j < |m| - 1 && m[j] == '-' && (forall k :: 0 <= k < |m| && k != j ==> IsSpace(m[k]))
  }

  /** Length of the dash marker the greedy optional group consumes, 0 when it does not match. */
  function MarkerLength(line: string): (d: nat)
    ensures d <= |line|
    ensures d > 0 ==> IsMarker(line[..d]) && (d == |line| || !IsSpace(line[d]))
    ensures d == 0 ==> forall e :: 0 < e <= |line| ==> !IsMarker(line[..e])
  {
    var j := SkipSpaces(line, 0);
    if j + 1 < |line| && line[j] == '-' && IsSpace(line[j + 1]) then
      var d := SkipSpaces(line, j + 1);
      assert forall k :: 0 <= k < d && k != j ==> IsSpace(line[..d][k]);
      d
    else
      NoMarker(line, j);
      0
  }

  lemma NoMarker(line: string, j: nat)
    requires j == SkipSpaces(line, 0)
    requires !(j + 1 < |line| && line[j] == '-' && IsSpace(line[j + 1]))
    ensures forall e :: 0 < e <= |line| ==> !IsMarker(line[..e])
  {
    forall e, i | 0 < e <= |line| && 0 <= i < e - 1 && line[..e][i] == '-'
      ensures exists k :: 0 <= k < e && k != i && !IsSpace(line[..e][k])
    {
      assert j <= i;
      if i != j {
        assert !IsSpace(line[..e][j]);
      } else {
        assert !IsSpace(line[..e][j + 1]);
      }
    }
  }

  /** The part of the line after the dash marker, if any. */
  function Rest(line: string): string {
    line[MarkerLength(line)..]
  }

  /** `r[..k]` can be the key group: it ends in a word character, then optional
      whitespace, a colon, and after the colon whitespace or the end of the line. */
  predicate ColonAfter(r: string, k: nat)
    requires k <= |r|
  {
    && 0 < k
    && IsWord(r[k - 1])
    && var j := SkipSpaces(r, k);
       j < |r| && r[j] == ':' && (j + 1 == |r| || IsSpace(r[j + 1]))
  }

  /** The value group for the key `r[..k]`: the text after the colon and its
      whitespace; the empty text reads as None (`value or s_value`). */
  function ValueAfter(r: string, k: nat): Option<string>
    requires k <= |r| && ColonAfter(r, k)
  {
    var j := SkipSpaces(r, k);
    if j + 1 == |r| then None
    else
      var v := r[SkipSpaces(r, j + 1)..];
      if v == "" then None else Some(v)
  }

  /** The lazy `.*?`: the first key length at or after `from` that works. */
  function FindKey(r: string, from: nat): (res: Option<nat>)
    requires from <= |r| + 1
    ensures res.Some? ==> from <= res.value <= |r| && ColonAfter(r, res.value)
    ensures forall k :: from <= k <= |r| && (res.None? || k < res.value) ==> !ColonAfter(r, k)
    decreases |r| + 1 - from
  {
    if from > |r| then None
    else if ColonAfter(r, from) then Some(from)
    else FindKey(r, from + 1)
  }

  /** parse(line) of macroparser.py. */
  function Tokenize(line: string): (t: Token)
    requires IsLine(line)
    ensures t.dashed <==> MarkerLength(line) > 0
    ensures t.key.Some? ==>
      var r, k := Rest(line), |t.key.value|;
      && k <= |r| && t.key.value == r[..k] && ColonAfter(r, k)
      && (forall k' :: 0 <= k' < k ==> !ColonAfter(r, k'))
      && t.value == ValueAfter(r, k)
    ensures t.key.None? ==>
      && (forall k :: 0 <= k <= |Rest(line)| ==> !ColonAfter(Rest(line), k))
      && t.value == Some(Rest(line))
  {
    var r := Rest(line);
    match FindKey(r, 0)
    case Some(k) => Token(Some(r[..k]), ValueAfter(r, k), MarkerLength(line) > 0)
    case None => Token(None, Some(r), MarkerLength(line) > 0)
  }

  /** What callers rely on: a key is non-empty and ends in a word character; a
      value next to a key is non-empty and starts after the whitespace; a line
      without key always has a value; nothing carries a newline. */
  lemma TokenShape(line: string)
    requires IsLine(line)
    ensures var t := Tokenize(line);
      && (t.key.Some? ==> t.key.value != "" && IsWord(t.key.value[|t.key.value| - 1]) && IsLine(t.key.value))
      && (t.key.Some? && t.value.Some? ==> t.value.value != "" && !IsSpace(t.value.value[0]))
      && (t.key.None? ==> t.value.Some?)
      && (t.value.Some? ==> IsLine(t.value.value))
  {
    var t := Tokenize(line);
    var r := Rest(line);
    SliceIsLine(line, MarkerLength(line), |line|);
    match FindKey(r, 0)
    case Some(k) =>
      SliceIsLine(r, 0, k);
      var j := SkipSpaces(r, k);
      if j + 1 < |r| {
        var h := SkipSpaces(r, j + 1);
        SliceIsLine(r, h, |r|);
      }
    case None =>
  }

  lemma SliceIsLine(s: string, a: nat, b: nat)
    requires IsLine(s) && a <= b <= |s|
    ensures IsLine(s[a..b])
  {
    assert forall i :: 0 <= i < b - a ==> s[a..b][i] == s[a + i];
  }

  /** The text of a line that `Tokenize` reads back as `t`: the dash marker
      "- ", then either `key: value`, `key:` or the scalar text. This is the
      same shape NamedBlock uses to synthesize its head line. */
  function Unparse(t: Token): string
    requires t.key.Some? || t.value.Some?
  {
    (if t.dashed then "- " else "") + Body(t)
  }

  /** The part of `Unparse(t)` after the marker. */
  function Body(t: Token): string
    requires t.key.Some? || t.value.Some?
  {
    match t.key
    case Some(k) => k + (if t.value.Some? then ": " + t.value.value else ":")
    case None => t.value.value
  }

  /** No prefix of `k` (up to its whole length) can serve as a key. */
  predicate NoInnerKey(k: string) {
    forall i :: 0 <= i <= |k| ==> !ColonAfter(k, i)
  }

  /** The first text after the optional marker does not extend or create a marker. */
  predicate Leads(s: string, dashed: bool) {
    if dashed then |s| == 0 || !IsSpace(s[0]) else MarkerLength(s) == 0
  }

  /** The tokens that `Unparse` can write out unambiguously. */
  predicate WellShaped(t: Token) {
    match t.key
    case Some(k) =>
      && k != "" && IsWord(k[|k| - 1]) && IsLine(k) && NoInnerKey(k) && Leads(k, t.dashed)
      && (t.value.Some? ==> t.value.value != "" && !IsSpace(t.value.value[0]) && IsLine(t.value.value))
    case None =>
      && t.value.Some? && IsLine(t.value.value) && NoInnerKey(t.value.value) && Leads(t.value.value, t.dashed)
  }

  /** Round trip: a well-shaped token written out as a line is read back unchanged. */
  lemma TokenizeUnparse(t: Token)
    requires WellShaped(t)
    ensures IsLine(Unparse(t))
    ensures Tokenize(Unparse(t)) == t
  {
    var line := Unparse(t);
    UnparseRest(t);
    var body := Body(t);
    if t.key.Some? {
      KeyedBody(t.key.value, t.value, body);
      assert Tokenize(line) == Token(Some(body[..|t.key.value|]), ValueAfter(body, |t.key.value|), t.dashed);
    } else {
      assert FindKey(body, 0) == None;
    }
  }

  /** An unparsed token is a line, and its marker is exactly the "- " written. */
  lemma UnparseRest(t: Token)
    requires WellShaped(t)
    ensures IsLine(Unparse(t))
    ensures MarkerLength(Unparse(t)) > 0 <==> t.dashed
    ensures Rest(Unparse(t)) == Body(t)
  {
    var line := Unparse(t);
    var body := Body(t);
    var pre := if t.dashed then "- " else "";
    assert line == pre + body;
    BodyIsLine(t, body);
    assert IsLine(line) by {
      assert forall i :: |pre| <= i < |line| ==> line[i] == body[i - |pre|];
    }
    MarkerOfUnparse(t, body, line);
  }

  /** The key-and-value half of the round trip, stated on the text after the marker. */
  lemma KeyedBody(k: string, value: Option<string>, body: string)
    requires k != "" && IsWord(k[|k| - 1]) && NoInnerKey(k)
    requires value.Some? ==> value.value != "" && !IsSpace(value.value[0])
    requires body == k + (if value.Some? then ": " + value.value else ":")
    ensures FindKey(body, 0) == Some(|k|)
    ensures body[..|k|] == k
    ensures ValueAfter(body, |k|) == value
  {
    KeyOfBody(k, value, body);
    var j := SkipSpaces(body, |k|);
    assert j == |k|;
    if value.Some? {
      assert body[j + 1] == ' ';
      assert body[j + 2] == value.value[0];
      assert SkipSpaces(body, j + 2) == j + 2;
      assert SkipSpaces(body, j + 1) == j + 2;
      assert body[j + 2..] == value.value;
    }
  }

  lemma BodyIsLine(t: Token, body: string)
    requires WellShaped(t)
    requires body == Body(t)
    ensures IsLine(body)
  {
    match t.key
    case Some(k) =>
      if t.value.Some? {
        assert body == k + ": " + t.value.value;
        assert forall i :: |k| + 2 <= i < |body| ==> body[i] == t.value.value[i - |k| - 2];
      }
    case None =>
  }

  lemma MarkerOfUnparse(t: Token, body: string, line: string)
    requires WellShaped(t)
    requires body == Body(t)
    requires line == (if t.dashed then "- " else "") + body
    ensures MarkerLength(line) == (if t.dashed then 2 else 0)
  {
    if t.dashed {
      assert SkipSpaces(line, 0) == 0;
      assert line[0] == '-' && line[1] == ' ';
      var lead := match t.key case Some(k) => k case None => t.value.value;
      assert |lead| == 0 || line[2] == lead[0];
      assert SkipSpaces(line, 2) == 2;
      assert SkipSpaces(line, 1) == 2;
    } else {
      match t.key
      case Some(k) =>
        assert line == k + body[|k|..];
        MarkerOfPrefix(k, body[|k|..]);
      case None =>
        assert line == t.value.value;
    }
  }

  /** Appending text after a word character does not change the marker. */
  lemma MarkerOfPrefix(k: string, tail: string)
    requires k != "" && IsWord(k[|k| - 1]) && MarkerLength(k) == 0
    ensures MarkerLength(k + tail) == 0
  {
    var line := k + tail;
    SkipSpacesPrefix(k, tail, 0);
    var j := SkipSpaces(k, 0);
    assert j < |k| - 1 || line[j] == k[|k| - 1];
  }

  /** A whitespace run that stops inside `a` stops at the same place in `a + b`. */
  lemma {:induction false} SkipSpacesPrefix(a: string, b: string, i: nat)
    requires i <= |a| && a != "" && !IsSpace(a[|a| - 1])
    requires i < |a|
    ensures SkipSpaces(a + b, i) == SkipSpaces(a, i)
    decreases |a| - i
  {
    if IsSpace(a[i]) {
      assert (a + b)[i] == a[i];
      SkipSpacesPrefix(a, b, i + 1);
    } else {
      assert (a + b)[i] == a[i];
    }
  }

  /** The key of `k: v` / `k:` is all of `k` when no shorter prefix can be a key. */
  lemma KeyOfBody(k: string, value: Option<string>, body: string)
    requires k != "" && IsWord(k[|k| - 1]) && NoInnerKey(k)
    requires value.Some? ==> value.value != ""
    requires body == k + (if value.Some? then ": " + value.value else ":")
    ensures FindKey(body, 0) == Some(|k|)
  {
    assert body[|k|] == ':';
    assert SkipSpaces(body, |k|) == |k|;
    assert body[|k| - 1] == k[|k| - 1];
    assert ColonAfter(body, |k|);
    forall i | 0 <= i < |k|
      ensures !ColonAfter(body, i)
    {
      SameColonAfter(k, body[|k|..], i);
      assert body == k + body[|k|..];
    }
  }

  lemma SameColonAfter(k: string, tail: string, i: nat)
    requires k != "" && IsWord(k[|k| - 1]) && i < |k|
    requires tail != [] && tail[0] == ':'
    ensures ColonAfter(k + tail, i) == ColonAfter(k, i)
  {
    var body := k + tail;
    SkipSpacesPrefix(k, tail, i);
    var j := SkipSpaces(k, i);
    assert j < |k|;
    assert body[j] == k[j];
    if 0 < i {
      assert body[i - 1] == k[i - 1];
    }
    if j + 1 < |k| {
      assert body[j + 1] == k[j + 1];
    } else {
      assert k[j] == k[|k| - 1];
    }
  }

  /** Any line that spells out a well-shaped token reads back as that token. */
  lemma ReadsBack(line: string, t: Token)
    requires WellShaped(t) && line == Unparse(t)
    ensures IsLine(line) && Tokenize(line) == t
  {
    TokenizeUnparse(t);
  }

  /** A line without a colon has no key. */
  lemma NoColonNoKey(s: string)
    requires forall i :: 0 <= i < |s| ==> s[i] != ':'
    ensures NoInnerKey(s)
  {
  }

  /** A line whose every colon is glued to the next character has no key:
      `12:30` and `http://x` stay scalars. */
  lemma GluedColonsNoKey(s: string)
    requires forall i :: 0 <= i < |s| && s[i] == ':' ==> i + 1 < |s| && !IsSpace(s[i + 1])
    ensures NoInnerKey(s)
  {
  }

  /** A first character that is neither whitespace nor '-' cannot start a marker. */
  lemma PlainStartNoMarker(s: string)
    requires s != [] && !IsSpace(s[0]) && s[0] != '-'
    ensures MarkerLength(s) == 0
  {
  }
}

=== FILE: wrappers.dfy ===
/** Option and Result types shared by the parser model.

    The Python code signals every grammar problem by raising (MacroParseException,
    a TypeError from a factory called with the wrong number of arguments, an
    AttributeError from serializing raw text). None of these is caught by the
    interactive loop, so each one aborts the whole document; they are collapsed
    into one failure result whose tag only says which rule refused the input. */
module Wrappers {

  datatype Option<+T> = None | Some(value: T)

  /** Which rule refused a line (or a tree, for serialization). */
  datatype Error =
    | DashNotAllowed   // a dash-marked line fed to a block whose allow_dashes is False
    | UnknownKeyword   // table lookup failed and the block has no default factory
    | FactoryArity     // a factory called with a value it does not take, or without one it needs
    | ModeViolation    // a line that an OrbObject's (un)committed mode refuses
    | NotSerializable  // serialize() called on raw text stored by a dict-mode OrbObject

  datatype Result<+T> = Ok(value: T) | Fail(error: Error) {
    predicate IsFailure() {
      Fail?
    }

    function PropagateFailure<U>(): Result<U>
      requires Fail?
    {
      Fail(error)
    }

    function Extract(): T
      requires Ok?
    {
      value
    }
  }
}
